=== FILE: README.md ===
# Security questionnaire pipeline — a Dafny model

This project models the questionnaire/answer pipeline of an AI-assisted
security-questionnaire service. A customer posts the text of a questionnaire.
The service then:

- extracts the questions from the text;
- fans them out in batches of ten over an event bus;
- asks a generator for answers;
- stores one answer row per question;
- lets people approve, reprocess and delete answers and questionnaires.

A questionnaire moves through LOADED → PROCESSING → ANSWERING → COMPLETED,
with ERROR as the other exit.

The model is functional:

- The key-value store is a map from key to record. A record holds the row and
  its label strings.
- A label query is a prefix match when the pattern ends in `*`, and an exact
  match otherwise.
- The event bus is an explicit list of published `{topic, delay, body}`
  events.
- Every handler is a pure function from the world (store plus published
  events) to the next world.

Things the service gets from outside become parameters:

- the listing pages the store returns;
- uuids, the clock and the random delay;
- the SHA-256 hex digest of a string (a function parameter);
- the model calls and `JSON.parse`, each returning `None` on failure.

Modules:

- `Wrappers`, `Seqs`, `Text`: the option/result types; `splitEvery`, join and
  split; JavaScript `trim` and truthiness.
- `Store`: records, label matching and pagination.
- `Enums`: the three string enums.
- `QuestionnaireRows`, `AnswerRows`: the rows, keys, labels and the hash.
- `Db`: the store, the event list, and `save` for both row kinds.
- `Gemini`: fence stripping, question extraction and the batch prompt.
- `Answers`: the `Answer` operations.
- `Questionnaires`: the `Questionnaire` operations.
- `Api`: the `POST /api/questionnaire` validator.
- `VectorSearch`: the CSV record filter.

Some behaviour of the code is easy to misread; the model follows the code:

- `onCreated` stores the extracted list and fans out batches. It creates no
  pending answer rows.
- `onAnswerProcessEvent` sets COMPLETED with no state guard and without
  setting `dateCompleted`. So states are not monotonic: an ERROR questionnaire
  can become COMPLETED. `Answers.AnswerProcessLeavesError` proves this.
- Names are neither validated nor unique.
- `delete` has no force override.

## Model

| member | source | states |
|---|---|---|
| Seqs.SplitEvery | models/questionnaire.ts:317 | ramda `splitEvery(n, s)`: the chunks concatenate back to `s`. Their number is `ChunkCount(|s|, n)`. Each chunk holds 1 to n items, and every chunk but the last holds exactly n. |
| Seqs.ChunkCountIsCeiling | models/questionnaire.ts:317 | The chunk count c is ⌈len/n⌉: it is zero iff the input is empty, c·n ≥ len, and (c−1)·n < len for a non-empty input. |
| Text.Trim | models/answer.ts:153-154 | `trim()` returns the slice of its input that has only whitespace around it. The result starts and ends with a non-whitespace character. It is never longer than the input. |
| Text.TrimIdempotent | models/answer.ts:255 | Trimming an already trimmed string changes nothing. |
| Enums.ParseType | models/questionnaire.ts:23-29 | A string is a questionnaire type iff it is one of the five listed values, and the parsed type prints back as that same string. |
| Enums.ParseCustomer | models/questionnaire.ts:31-38 | A string is a customer type iff it is one of the six listed values, and the parsed type prints back as that same string. |
| Enums.TypeRoundTrip | models/questionnaire.ts:23-29 | Every questionnaire type's string value is accepted and parses back to that type. |
| Enums.CustomerRoundTrip | models/questionnaire.ts:31-38 | Every customer type's string value is accepted and parses back to that type. |
| Store.WildcardMatches | models/answer.ts:198-202 | A query ending in `*` selects exactly the labels that start with the text before the `*`. |
| Store.PaginateAllItems | models/answer.ts:204-211 | Splitting a listing into pages of any positive size and concatenating the pages in `next` order gives back the listing. |
| QuestionnaireRows.FromRow | models/questionnaire.ts:82-109 | The constructor copies every row field. A falsy (zero) `dateCreated` becomes the current time. `totalAnswersApproved` starts at 0. |
| QuestionnaireRows.ToJson | models/questionnaire.ts:335-349 | `toJson` keeps every persisted field: for an object with a creation date, `fromRow(toJson(q))` gives back `q` with only the derived approved count reset to 0. |
| QuestionnaireRows.RowRoundTrip | models/questionnaire.ts:335-349 | `toJson(fromRow(row))` is `row` when the row has a creation date. |
| QuestionnaireRows.RowRoundTripStampsDate | models/questionnaire.ts:104 | A row without a creation date comes back stamped with the current time and otherwise unchanged. |
| QuestionnaireRows.ObjectRoundTrip | models/questionnaire.ts:335-349 | An object with a creation date and a zero approved count is rebuilt exactly from its own row. |
| AnswerRows.Hash | models/answer.ts:46-48 | The question hash is a prefix of the question's hex digest: its first 12 characters, or the whole digest if it is shorter (`slice(0, 12)`). |
| AnswerRows.HashOfHexDigest | models/answer.ts:46-48 | For a digest of 64 hex digits, as SHA-256 produces, the hash is exactly 12 hex digits. |
| AnswerRows.LabelsFor | models/answer.ts:322-341 | An answer always carries `label2 = answerhash:<hash>`. It carries `label1 = questionnaire:<qid>:<hash>` exactly when its questionnaire id is truthy. It carries no other label. |
| Db.SaveQuestionnaire | models/questionnaire.ts:279-284 | `save` writes `toJson()` under `questionnaire:<id>`, and that record's labels are exactly `label1 = questionnaire-<name>`. No other record changes, and a consistent store stays consistent. |
| Db.SaveAnswer | models/answer.ts:322-341 | `save` writes the row under `answer:<uuid>`, and that record's labels are exactly the answer's `label1`/`label2` (see AnswerRows.LabelsFor). No other record changes, and a consistent store stays consistent. |
| Db.KeysDisjoint | models/answer.ts:331 | An answer key never equals a questionnaire key. |
| Db.LookupHasId | models/questionnaire.ts:243-246 | In a consistent store, the row found under `questionnaire:<id>` has id `id`. |
| Gemini.StripFences | gemini.ts:25 | Removing the fences never lengthens the text, and text without a backtick comes back unchanged. |
| Gemini.StripFencesPlainPrefix | gemini.ts:56 | A backtick-free prefix passes through untouched and never joins a fence. |
| Gemini.StripFencedBlock | gemini.ts:25 | A backtick-free body wrapped in a json code fence loses exactly the fence. |
| Gemini.ExtractQuestions | gemini.ts:19-31 | A failed model call gives `null` rather than an exception. Otherwise the result is `JSON.parse` of the reply with its code fences removed, `null` when parsing throws, and a reply without a backtick is parsed exactly as it came. |
| Gemini.ExtractQuestionsFenced | gemini.ts:19-31 | A failed call is `null`. A fenced reply is parsed as its bare body, and an unfenced reply as itself. |
| Gemini.AnswerQuestionBatch | gemini.ts:33-58 | The model is asked with the batch prompt. A failed call fails the batch. Otherwise the result is `JSON.parse` of the reply with its code fences removed, and a reply without a backtick is parsed exactly as it came. |
| Gemini.AnswerQuestionBatchFenced | gemini.ts:33-58 | A fenced batch reply is parsed as its bare body. |
| Gemini.AnswerQuestionBatchCalled | gemini.ts:33-58 | Handed a list, `answerQuestionBatch` asks the model with the joined prompt. Handed a request object, it fails before the model is asked, because an object has no `join`. |
| Gemini.BatchPromptLines | gemini.ts:51 | The batch prompt holds the questions one per line, in order: splitting it at newlines gives the questions back. |
| Gemini.Lookup | models/answer.ts:279-286 | `obj[question]` is defined iff some member of the reply has that key, and it is the value of such a member. |
| Gemini.LookupIsLast | models/answer.ts:279-286 | With a repeated key, `obj[question]` is the value of the last member with that key, as `JSON.parse` keeps it: no later member has the key. |
| Gemini.ObjectEntries | models/answer.ts:152 | `Object.entries` of the parsed reply lists each key once, and agrees with `obj[key]` on every key: a repeated key in the reply text yields one entry, with its last value. |
| Gemini.ObjectEntriesLookup | models/answer.ts:152 | A pair is listed by `Object.entries` iff `obj[key]` gives that value. |
| Gemini.ObjectEntriesOrder | models/answer.ts:152 | `Object.entries` lists every key at the place it first occurs in the reply text: each listed key occurs in the reply, and listed keys are in increasing order of first occurrence. |
| Answers.Create | models/answer.ts:133-142 | The new row's id is the hash of the question, with a fresh uuid and approval unset. It is stored under `answer:<uuid>` and nothing else changes. |
| Answers.BatchCreate | models/answer.ts:144-188 | There is one pair per entry, in entry order. Each pair has the trimmed question and answer, id = hash of the trimmed question, and key `answer:<uuid>`. `label1` is present iff a questionnaire id is given. There are ⌈n/25⌉ write calls of at most 25 pairs each, all but the last full. |
| Answers.ApplyCallsFlatten | models/answer.ts:180-185 | Performing the write calls one after another is writing all their pairs in order. |
| Answers.BatchCreateStores | models/answer.ts:150-185 | With distinct uuids, every entry is stored as `save` would store it. Every other record is kept, and a consistent store stays consistent. |
| Answers.BatchCreateKeeps | models/answer.ts:180-185 | Whatever the uuids, a batch leaves every record outside its `answer:<uuid>` keys unchanged. |
| Answers.ListByQuestionnaireId | models/answer.ts:198-214 | Following `next` until it is absent returns every page's items, in page order. |
| Answers.GetByQuestionnaireIdAndHash | models/answer.ts:216-234 | More than one match throws "Multiple answers found…". No match gives `null`. Exactly one match gives that row. |
| Answers.GetByQuestionnaireIdAndHashInStore | models/answer.ts:216-234 | Against the store: `null` iff no record carries the label, an error iff two distinct records carry it, and otherwise the stored row. |
| Answers.AnswersPatternSelects | models/answer.ts:201 | For colon-free ids, `questionnaire:<id>:*` selects an answer label iff the answer belongs to that questionnaire. |
| Answers.Updated | models/answer.ts:247-256 | `approved` becomes exactly the argument, so omitting it clears an approval. The answer is replaced by its trimmed value only when a non-empty one is given. Question, id, uuid and questionnaire id are unchanged. |
| Answers.Update | models/answer.ts:247-259 | `update` writes the updated row under the answer's `answer:<uuid>` key with the answer's own labels. No other record changes, and no other key is added. |
| Answers.UpdateInPlace | models/answer.ts:258 | An update overwrites the stored record under the same key and labels, and adds no record. |
| Answers.UpdateIdempotent | models/answer.ts:247-259 | Repeating an update changes nothing further. |
| Answers.ApproveForQuestionnaire | models/answer.ts:236-241 | Whatever the store holds, only the listed answers' `answer:<uuid>` keys change. Each one ends up holding a listed answer with that uuid, approved, its question and answer text as listed (`ApprovedFrom`). |
| Answers.ApproveForQuestionnaireIsReference | models/answer.ts:236-241 | Approving the listed answers yields exactly this store: every answer labelled for the questionnaire approved, no answer text changed, every other record unchanged. |
| Answers.Context | models/answer.ts:262-271 | Reprocessing uses the owning questionnaire's type and customer type. When the questionnaire is unset or absent, both are `other`. |
| Answers.Reprocess | models/answer.ts:261-295 | `reprocess` succeeds iff the generator answers and has a truthy value under the exact question text. On success, the stored answer becomes that value trimmed, with approval cleared, and no other record changes. A generator that throws rejects with its own error, not the reprocess message. "Something went wrong re-processing" is thrown iff a reply came back without a truthy answer for the question. |
| Answers.DeleteAsWritten | models/answer.ts:318-320 | As written, `delete` removes exactly `answer:<hash>`, the key of the question hash, and keeps every other record unchanged. |
| Answers.DeleteAsWrittenKeepsRow | models/answer.ts:318-320 | As written, `delete` removes `answer:<hash>`, so a saved answer (36-character uuid, 12-character hash) survives its own deletion. |
| Answers.Delete | models/answer.ts:318-320 | Corrected delete: removes exactly the key `save` wrote, keeps every other record, and keeps the store consistent. |
| Answers.DeleteRemovesSaved | models/answer.ts:318-331 | Deleting a just-saved answer removes it, and leaves the store as it was before the save, without that key: a record already under `answer:<uuid>` (as after `update`) is gone too. |
| Answers.DeleteUndoesFirstSave | models/answer.ts:318-331 | Deleting an answer whose key was not yet stored undoes its save exactly: the store is as it was before. |
| Answers.OnCreated | models/answer.ts:72-85 | Publishes one `answer:process` event with the row after the given delay. The only record that may change is the owning questionnaire. It changes only from PROCESSING, to ANSWERING, and a PROCESSING owner does change. |
| Answers.OnAnswerProcessEvent | models/answer.ts:87-131 | A failed generator stops the handler. Otherwise the answer is stored with approval cleared. Then, when every listed answer is non-empty, the owning questionnaire is set COMPLETED whatever its state, with `dateCompleted` unchanged. No other record changes. |
| Answers.AllAnsweredIffStored | models/answer.ts:113-118 | On a listing of the questionnaire's answers, "every listed answer is non-empty" holds iff every stored answer of the questionnaire is non-empty. |
| Answers.AnswerProcessCompletesIffAllAnswered | models/answer.ts:113-129 | The handler leaves a not-yet-completed questionnaire COMPLETED iff every stored answer of it is non-empty. |
| Answers.AnswerProcessLeavesError | models/answer.ts:119-128 | There is no state guard: an ERROR questionnaire whose answers are all filled becomes COMPLETED. |
| Questionnaires.Create | models/questionnaire.ts:180-210 | The new questionnaire is LOADED, with questions, error, completion and approval unset. Type and customer type default to `other`. It is created at the current time, saved under its fresh id, and nothing is published. |
| Questionnaires.Get | models/questionnaire.ts:243-258 | `null` iff no row is stored. Otherwise the row's object, with `totalAnswersApproved` = the number of listed answers whose `approved` is true. |
| Questionnaires.GetCountsApprovedAnswers | models/questionnaire.ts:249-252 | With a listing of its answers, the approved count is the number of approved answers the store holds for the questionnaire. |
| Questionnaires.Approve | models/questionnaire.ts:267-277 | Unknown id gives `null`. Otherwise only `approvedAt` is set, to the second clock reading (the first one stamps an undated row in `get`), and the state is unchanged. The row is saved in place, and no other record changes. |
| Questionnaires.Delete | models/questionnaire.ts:286-306 | Succeeds iff the state is COMPLETED or ERROR. Otherwise it throws "Cannot Delete Questionnaire while in <state> state!" and removes nothing. On success exactly these keys go: `questionnaire:<id>`, plus, with `removeAnswers`, `answer:<hash>` for each listed answer (`answer.delete()` as written). Every remaining record is unchanged. |
| Questionnaires.DeleteKeepsAnswers | models/questionnaire.ts:294-300 | As written, a cascading delete removes the questionnaire but every answer labelled for it (36-character uuid, 12-character hash) stays, unchanged. |
| Questionnaires.DeleteIntended | models/questionnaire.ts:286-306 | Corrected delete: the same guard and error. On success it removes exactly `questionnaire:<id>` and, with `removeAnswers`, each listed answer's `answer:<uuid>` key, the key `save` wrote. Every other record is kept unchanged. |
| Questionnaires.DeleteCascades | models/questionnaire.ts:294-300 | Corrected delete: with `removeAnswers` and a listing of its answers, no answer labelled for the questionnaire remains, and every other record is kept. |
| Questionnaires.DeleteRefusedWhileActive | models/questionnaire.ts:301-305 | A LOADED, PROCESSING or ANSWERING questionnaire cannot be deleted, as written or corrected. |
| Questionnaires.BatchProcessAnswers | models/questionnaire.ts:308-331 | Does nothing unless questions are stored and the state is PROCESSING. Otherwise it saves ANSWERING and appends ⌈n/10⌉ events. Their batches concatenate to the questions, each holds 1 to 10 questions, and all but the last hold exactly 10. Event i carries batch number i, the total count, and a delay of i·50 ms. |
| Questionnaires.BatchDelaysIncrease | models/questionnaire.ts:322 | Batch event delays are strictly increasing. |
| Questionnaires.OnCreated | models/questionnaire.ts:157-177 | A non-empty extracted list is stored with state PROCESSING and fanned out, so the questionnaire ends ANSWERING with ⌈n/10⌉ events published. A `null` or empty list saves ERROR with "Error extracting questions" and publishes nothing. |
| Questionnaires.OnAnswerBatch | models/questionnaire.ts:116-155 | Acts only on a stored ANSWERING questionnaire, and publishes nothing. A failed generator saves ERROR with "Error answering batch". Otherwise the reply's `Object.entries` are batch-created. The last batch then saves COMPLETED with the second clock reading as completion time; any other batch leaves the row alone. |
| Questionnaires.BatchLeavesTerminal | models/questionnaire.ts:124-126 | A batch for a COMPLETED or ERROR questionnaire changes nothing and writes no answers. |
| Questionnaires.BatchOutcome | models/questionnaire.ts:127-153 | After a batch, the questionnaire is ERROR iff the generator failed, and COMPLETED with a completion time when the last batch succeeded. After any other successful batch it is unchanged, still ANSWERING. |
| Questionnaires.BatchAsWrittenErrors | models/questionnaire.ts:128-143 | As written, the handler passes a request object to the list-taking `answerQuestionBatch` of gemini.ts, so every batch ends the questionnaire in ERROR with "Error answering batch". |
| Questionnaires.ByNameAsWrittenNeverMatches | models/questionnaire.ts:216-222 | As written, the name query `questionnaire:<name>*` matches no label `Questionnaire.save` writes. |
| Questionnaires.ByNameAsWrittenMatchesAnswers | models/questionnaire.ts:216-222 | As written, the same query matches an answer's `label1` `questionnaire:<qid>:<hash>` iff `<qid>:<hash>` starts with the name, so the empty name matches every answer that has a questionnaire. |
| Questionnaires.ByNamePatternSelectsName | models/questionnaire.ts:279-282 | Corrected name query: it selects a saved questionnaire's label iff its name is the one asked for. |
| Api.Validate | index.ts:32-51 | The checks run in order. Missing text gives "Text is required" before the type is looked at. A missing or unknown type gives "Invalid questionnaire type" before the customer type is looked at. A missing or unknown customer type gives "Invalid customer type". A body passes iff all three hold. |
| Api.Post | index.ts:32-59 | A rejected body answers 400 and changes nothing. An accepted one creates a LOADED questionnaire from exactly the body's text, type and customer type, with no name, and answers 200 with it. |
| Api.WellFormedBodyAccepted | index.ts:39-57 | Any non-empty text with any valid type and customer type is accepted, and the questionnaire carries exactly those values. |
| VectorSearch.QuestionsFromCsvs | vector-search.ts:105-146 | Questions and answers have equal length, and answer i's question is question i. Both are non-empty, and each answer's id is the hash of the answer text. The outputs are the kept records of all files, in order. |
| VectorSearch.KeptSingle | vector-search.ts:119-125 | A record is kept iff both its question and its answer are non-empty, and then it yields its own question and answer. |
| VectorSearch.KeptAppend | vector-search.ts:119-138 | Within a file, record order is output order. |
| VectorSearch.KeptAllAppend | vector-search.ts:109-139 | Across files, argument order is output order. |
| VectorSearch.KeptNone | vector-search.ts:118-125 | A file with no records, or no kept records, contributes nothing. |
| VectorSearch.KeptAllNonEmpty | vector-search.ts:119-125 | Every output pair has a non-empty question and answer. |

## Left out

- Gemini, Vertex and embedding calls, the prompt texts, and `JSON.parse`. They are functions passed in that return `None` on failure.
- `answerQuestion`, used at models/answer.ts:103, is not part of this model. Its result is the `answered` parameter of `Answers.OnAnswerProcessEvent`.
- The generator is modelled as the callers use it: questions plus type and customer type, returning a question→answer object. models/questionnaire.ts:9 imports `answerQuestionBatch` from gemini.ts, which takes only a string array; that mismatch is a finding below, and `Questionnaires.OnAnswerBatch` takes the object-taking generator the caller expects. models/answer.ts:7 imports `answerQuestion` and `answerQuestionBatch` through the alias `@gemini`, whose target is not part of this model (gemini.ts exports no `answerQuestion`).
- JavaScript orders integer-like keys of an object (`"1"`, `"42"`) before the others, in ascending order. `Gemini.ObjectEntries` keeps every key at its first position in the reply text, so for questions that are integer-like strings the order of the created answers may differ. Only the order differs; the set of answers is the same.
- Answers.Reprocess: a throwing generator's own error message is not modelled; it is the single failure value `GenerationFailed`.
- The Ampt data and events runtime: handler registration, timeouts, `meta`, and the merge-versus-overwrite flag of `data.set`. Every write replaces the record.
- Concurrency: each `Promise.all` is sequential, in array order, and races between handlers are not modelled.
- uuid generation, `DateTime.now` and the SHA-256 internals: uuids, times and the digest are parameters.
- The `Math.random` delay of models/answer.ts:301 is a parameter in 0..999.
- Logging.
- CSV and file I/O: `readFileSync` and csv-parse. `VectorSearch` starts from parsed records.
- Non-string JSON values in request bodies and parsed replies. Fields are optional strings.
- The other routes in index.ts, `Questionnaire.list`, `searchByName` and `getByQuestionHash`. The name query is modelled only as its pattern, see Findings.
- One-off scripts and the commented-out Vertex module.
- The store runtime's listing itself. The listing-based lemmas take the pages as given, and that they hold every labelled record is a precondition (`Db.ListsAnswers`), not derived.
- Answers.OnCreated: its state promises assume a consistent store, one where every record sits under the key `save` gives it. The source makes no such assumption explicit.

## Findings

| source | as written | input that shows it | evidently intended | confidence | as-written member | corrected member |
|---|---|---|---|---|---|---|
| models/answer.ts:318-320 | `delete()` removes `answer:${this.id}`, the 12-digit question hash | any saved answer: `save` wrote it under `answer:<uuid>` (36 characters), so removing `answer:<hash>` leaves it in place | remove `answer:${this.uuid}`, the key `save` wrote (models/answer.ts:331) | high; not executed | Answers.DeleteAsWrittenKeepsRow | Answers.DeleteRemovesSaved |
| models/questionnaire.ts:294-300 | the cascade calls `answer.delete()` on each listed answer, which removes `answer:<hash>` | any COMPLETED questionnaire with a saved answer, deleted with `removeAnswers`: the answer record `answer:<uuid>` remains | remove each answer under `answer:<uuid>` | high; not executed | Questionnaires.DeleteKeepsAnswers | Questionnaires.DeleteCascades |
| models/questionnaire.ts:128-132 | `answerQuestionBatch({ questions, type, customerType })`, imported from gemini.ts (models/questionnaire.ts:9), whose `answerQuestionBatch(questions: string[])` builds its prompt with `questions.join` (gemini.ts:51) | any batch event for an ANSWERING questionnaire: the object has no `join`, the call throws, and the catch at :138-142 records ERROR "Error answering batch" | a generator that takes the questions with the type and customer type | medium; not executed | Questionnaires.BatchAsWrittenErrors | Questionnaires.BatchOutcome |
| models/questionnaire.ts:216-222 | `getByName` queries `label1` with `questionnaire:${name}*` | any saved questionnaire: its label is `questionnaire-<name>` (models/questionnaire.ts:281), whose 14th character is `-`, not `:`. The query does match answer labels `questionnaire:<qid>:<hash>` (models/answer.ts:337) whose `<qid>:<hash>` starts with the name, e.g. the empty name, and `getByName` then returns `Questionnaire.fromRow` of an answer row | query the label `questionnaire-<name>` that `Questionnaire.save` writes | high; not executed | Questionnaires.ByNameAsWrittenNeverMatches | Questionnaires.ByNamePatternSelectsName |

=== FILE: answer_rows.dfy ===
/** The stored answer row, the question hash, and the key and labels under
    which an answer is saved (`models/answer.ts`). */
module AnswerRows {
  import opened Wrappers
  import opened Text

  predicate IsHexDigit(c: char)
  {
    '0' <= c <= '9' || 'a' <= c <= 'f'
  }

  /** A lowercase hex SHA-256 digest: 64 hex digits. */
  predicate IsHexDigest(d: string)
  {
    |d| == 64 && forall i :: 0 <= i < |d| ==> IsHexDigit(d[i])
  }

  /** SHA-256 rendered as lowercase hex. Its internals are not modelled: the
      model is parametric in the digest function. */
  type Digest = string -> string

  /** `Answer.hash`: `digest.slice(0, 12)`, the first 12 characters of the
      hex digest of the question (the whole digest if it were shorter). */
  function Hash(digest: Digest, question: string): (h: string)
    ensures h <= digest(question)
    ensures |h| == if |digest(question)| < 12 then |digest(question)| else 12
  {
    var d := digest(question);
    if |d| < 12 then d else d[..12]
  }

  /** For a real SHA-256 hex digest the hash is 12 hex digits. */
  lemma HashOfHexDigest(digest: Digest, question: string)
    requires IsHexDigest(digest(question))
    ensures |Hash(digest, question)| == 12
    ensures forall i :: 0 <= i < 12 ==> IsHexDigit(Hash(digest, question)[i])
  {
  }

  /** `AnswerRow`. `questionnaireId` is unset for historical answers loaded
      only for retrieval; `approved` is the source's tri-state flag. */
  datatype AnswerRow = AnswerRow(
    id: string,
    question: string,
    answer: Option<string>,
    approved: Option<bool>,
    questionnaireId: Option<string>,
    uuid: string)

  /** The store key `answer:<uuid>` that `save` writes. */
  function Key(uuid: string): string
  {
    "answer:" + uuid
  }

  /** The `label1` value `questionnaire:<questionnaireId>:<hash>`. */
  function QuestionnaireLabel(questionnaireId: string, hash: string): string
  {
    "questionnaire:" + questionnaireId + ":" + hash
  }

  /** The `label2` value `answerhash:<hash>`. */
  function HashLabel(hash: string): string
  {
    "answerhash:" + hash
  }

  /** The labels written with an answer: always the hash label, and the
      questionnaire label only when `questionnaireId` is truthy. */
  function LabelsFor(questionnaireId: Option<string>, hash: string): (labels: map<string, string>)
    ensures "label2" in labels && labels["label2"] == HashLabel(hash)
    ensures "label1" in labels <==> Truthy(questionnaireId)
    ensures "label1" in labels ==> labels["label1"] == QuestionnaireLabel(questionnaireId.value, hash)
    ensures labels.Keys <= {"label1", "label2"}
  {
    if Truthy(questionnaireId) then
      map["label2" := HashLabel(hash), "label1" := QuestionnaireLabel(questionnaireId.value, hash)]
    else
      map["label2" := HashLabel(hash)]
  }

  /** The labels `save` attaches to `a`. */
  function Labels(a: AnswerRow): map<string, string>
  {
    LabelsFor(a.questionnaireId, a.id)
  }

  /** The query `questionnaire:<id>:*` that lists a questionnaire's answers. */
  function AnswersPattern(questionnaireId: string): string
  {
    "questionnaire:" + questionnaireId + ":*"
  }

  /** The exact query `questionnaire:<id>:<hash>`. */
  function AnswerPattern(questionnaireId: string, hash: string): string
  {
    QuestionnaireLabel(questionnaireId, hash)
  }
}

=== FILE: answers.dfy ===
/** `Answer` operations of `models/answer.ts` as functions over the store:
    creation (single and batched), listing, lookup, update, approval,
    reprocessing, deletion and the two event handlers. */
module Answers {
  import opened Wrappers
  import opened Text
  import opened Store
  import opened Enums
  import Seqs
  import Q = QuestionnaireRows
  import opened AnswerRows
  import opened Db
  import Gemini

  /** The answer generator as its callers invoke it: a batch of questions with
      the questionnaire's type and customer type, giving the parsed
      question-to-answer object (its members as written, see `Gemini.Entries`),
      or `None` when the call throws. */
  type Generator = (seq<string>, QuestionnaireType, CustomerType) -> Option<Gemini.Entries>

  /** The store accepts at most this many keys per `data.set` call. */
  const WriteLimit: nat := 25

  // ---------------------------------------------------------------- create

  /** `Answer.create`: hashes the question as given (untrimmed), takes a
      fresh `uuid`, leaves `approved` unset and saves. */
  function Create(t: Table, question: string, answer: Option<string>,
                  questionnaireId: Option<string>, uuid: string, digest: Digest)
    : (res: (Table, AnswerRow))
    ensures res.1.id == Hash(digest, question)
    ensures res.1.uuid == uuid && res.1.approved.None?
    ensures res.1.question == question && res.1.answer == answer
    ensures res.1.questionnaireId == questionnaireId
    ensures res.0.Keys == t.Keys + {Key(uuid)}
    ensures res.0[Key(uuid)] == Record(ARow(res.1), Labels(res.1))
    ensures forall k :: k in t && k != Key(uuid) ==> res.0[k] == t[k]
  {
    var a := AnswerRow(Hash(digest, question), question, answer, None, questionnaireId, uuid);
    (SaveAnswer(t, a), a)
  }

  // ----------------------------------------------------------- batchCreate

  /** One key-value pair of a `data.set` batch. */
  datatype Write = Write(key: string, value: AnswerRow, labels: map<string, string>)

  /** The pair `batchCreate` builds for one `[question, answer]` entry. */
  function EntryWrite(questionnaireId: Option<string>, entry: (string, string),
                      uuid: string, digest: Digest): Write
  {
    var question := Trim(entry.0);
    var id := Hash(digest, question);
    Write(Key(uuid),
          AnswerRow(id, question, Some(Trim(entry.1)), None, questionnaireId, uuid),
          LabelsFor(questionnaireId, id))
  }

  /** The pairs for all entries, in entry order; entry `i` gets `uuids[i]`. */
  function EntryWrites(questionnaireId: Option<string>, entries: Gemini.Entries,
                       uuids: seq<string>, digest: Digest): (ws: seq<Write>)
    requires |uuids| == |entries|
    ensures |ws| == |entries|
    ensures forall i :: 0 <= i < |ws| ==> ws[i] == EntryWrite(questionnaireId, entries[i], uuids[i], digest)
  {
    seq(|entries|, i requires 0 <= i < |entries| => EntryWrite(questionnaireId, entries[i], uuids[i], digest))
  }

  /** One `data.set(pairs)` call: the pairs are written in order. */
  function ApplyWrites(t: Table, ws: seq<Write>): Table
    decreases |ws|
  {
    if |ws| == 0 then t
    else ApplyWrites(t[ws[0].key := Record(ARow(ws[0].value), ws[0].labels)], ws[1..])
  }

  /** The calls of a batch, applied one after another. */
  function ApplyCalls(t: Table, calls: seq<seq<Write>>): Table
    decreases |calls|
  {
    if |calls| == 0 then t else ApplyCalls(ApplyWrites(t, calls[0]), calls[1..])
  }

  /** The store after a batch, and the `data.set` calls that produced it. */
  datatype BatchResult = BatchResult(table: Table, calls: seq<seq<Write>>)

  /** `Answer.batchCreate`: one record per entry of `Object.entries(answers)`
      (`entries`, see `Gemini.ObjectEntries`), question and answer trimmed,
      id the hash of the trimmed question, a fresh uuid each; the records go
      to the store in calls of at most 25 pairs. */
  function BatchCreate(t: Table, questionnaireId: Option<string>, entries: Gemini.Entries,
                       uuids: seq<string>, digest: Digest): (r: BatchResult)
    requires |uuids| == |entries|
    ensures var ws := Seqs.Flatten(r.calls);
      && |ws| == |entries|
      && (forall i :: 0 <= i < |ws| ==>
            && ws[i].key == Key(uuids[i])
            && ws[i].value.question == Trim(entries[i].0)
            && ws[i].value.answer == Some(Trim(entries[i].1))
            && ws[i].value.id == Hash(digest, ws[i].value.question)
            && ws[i].value.uuid == uuids[i]
            && ws[i].value.approved.None?
            && ws[i].value.questionnaireId == questionnaireId
            && ("label1" in ws[i].labels <==> Truthy(questionnaireId))
            && ws[i].labels == Labels(ws[i].value))
    ensures forall i :: 0 <= i < |r.calls| ==> 0 < |r.calls[i]| <= WriteLimit
    ensures forall i :: 0 <= i < |r.calls| - 1 ==> |r.calls[i]| == WriteLimit
    ensures |r.calls| == Seqs.ChunkCount(|entries|, WriteLimit)
    ensures r.table == ApplyCalls(t, r.calls)
  {
    var ws := EntryWrites(questionnaireId, entries, uuids, digest);
    var calls := Seqs.SplitEvery(WriteLimit, ws);
    BatchResult(ApplyCalls(t, calls), calls)
  }

  /** Applying the calls one after another is applying all their pairs in order. */
  lemma {:induction false} ApplyCallsFlatten(t: Table, calls: seq<seq<Write>>)
    ensures ApplyCalls(t, calls) == ApplyWrites(t, Seqs.Flatten(calls))
    decreases |calls|
  {
    if |calls| > 0 {
      ApplyCallsFlatten(ApplyWrites(t, calls[0]), calls[1..]);
      ApplyWritesAppend(t, calls[0], Seqs.Flatten(calls[1..]));
    }
  }

  lemma {:induction false} ApplyWritesAppend(t: Table, a: seq<Write>, b: seq<Write>)
    ensures ApplyWrites(t, a + b) == ApplyWrites(ApplyWrites(t, a), b)
    decreases |a|
  {
    if |a| > 0 {
      assert (a + b)[0] == a[0];
      assert (a + b)[1..] == a[1..] + b;
      ApplyWritesAppend(t[a[0].key := Record(ARow(a[0].value), a[0].labels)], a[1..], b);
    } else {
      assert a + b == b;
    }
  }

  /** Writing pairs with distinct keys stores each pair under its key and
      leaves every other key as it was. */
  lemma {:induction false} ApplyWritesStores(t: Table, ws: seq<Write>)
    requires forall i, j :: 0 <= i < j < |ws| ==> ws[i].key != ws[j].key
    ensures forall i :: 0 <= i < |ws| ==>
              ws[i].key in ApplyWrites(t, ws)
              && ApplyWrites(t, ws)[ws[i].key] == Record(ARow(ws[i].value), ws[i].labels)
    ensures forall k :: k in t && (forall i :: 0 <= i < |ws| ==> ws[i].key != k) ==>
              k in ApplyWrites(t, ws) && ApplyWrites(t, ws)[k] == t[k]
    ensures forall k :: k in ApplyWrites(t, ws) ==>
              k in t || exists i :: 0 <= i < |ws| && ws[i].key == k
    decreases |ws|
  {
    if |ws| > 0 {
      var t1 := t[ws[0].key := Record(ARow(ws[0].value), ws[0].labels)];
      ApplyWritesStores(t1, ws[1..]);
      forall k | k in ApplyWrites(t, ws)
        ensures k in t || exists i :: 0 <= i < |ws| && ws[i].key == k
      {
        if k !in t1 {
          var i :| 0 <= i < |ws[1..]| && ws[1..][i].key == k;
          assert ws[i + 1].key == k;
        } else if k !in t {
          assert ws[0].key == k;
        }
      }
    }
  }

  lemma KeyInjective(u1: string, u2: string)
    ensures Key(u1) == Key(u2) ==> u1 == u2
  {
    if Key(u1) == Key(u2) {
      assert u1 == Key(u1)[7..];
      assert u2 == Key(u2)[7..];
    }
  }

  /** Pairs shaped as `save` writes them keep the store consistent. */
  lemma {:induction false} ApplyWritesConsistent(t: Table, ws: seq<Write>)
    requires Consistent(t)
    requires forall i :: 0 <= i < |ws| ==> ws[i].key == Key(ws[i].value.uuid) && ws[i].labels == Labels(ws[i].value)
    ensures Consistent(ApplyWrites(t, ws))
    decreases |ws|
  {
    if |ws| > 0 {
      assert t[ws[0].key := Record(ARow(ws[0].value), ws[0].labels)] == SaveAnswer(t, ws[0].value);
      ApplyWritesConsistent(SaveAnswer(t, ws[0].value), ws[1..]);
    }
  }

  /** The batch's pairs under distinct uuids have distinct keys. */
  lemma EntryWritesDistinct(questionnaireId: Option<string>, entries: Gemini.Entries,
                            uuids: seq<string>, digest: Digest)
    requires |uuids| == |entries|
    requires forall i, j :: 0 <= i < j < |uuids| ==> uuids[i] != uuids[j]
    ensures var ws := EntryWrites(questionnaireId, entries, uuids, digest);
            forall i, j :: 0 <= i < j < |ws| ==> ws[i].key != ws[j].key
  {
    var ws := EntryWrites(questionnaireId, entries, uuids, digest);
    forall i, j | 0 <= i < j < |ws| ensures ws[i].key != ws[j].key {
      WriteKeysDiffer(questionnaireId, entries[i], entries[j], uuids[i], uuids[j], digest);
    }
  }

  lemma WriteKeysDiffer(questionnaireId: Option<string>, e1: (string, string), e2: (string, string),
                        u1: string, u2: string, digest: Digest)
    requires u1 != u2
    ensures EntryWrite(questionnaireId, e1, u1, digest).key != EntryWrite(questionnaireId, e2, u2, digest).key
  {
    KeyInjective(u1, u2);
  }

  /** The store after a batch is the store with all its pairs written in order. */
  lemma BatchCreateIsApplyWrites(t: Table, questionnaireId: Option<string>, entries: Gemini.Entries,
                                 uuids: seq<string>, digest: Digest)
    requires |uuids| == |entries|
    ensures BatchCreate(t, questionnaireId, entries, uuids, digest).table
            == ApplyWrites(t, EntryWrites(questionnaireId, entries, uuids, digest))
  {
    var ws := EntryWrites(questionnaireId, entries, uuids, digest);
    var calls := Seqs.SplitEvery(WriteLimit, ws);
    assert BatchCreate(t, questionnaireId, entries, uuids, digest) == BatchResult(ApplyCalls(t, calls), calls);
    ApplyCallsFlatten(t, calls);
  }

  /** Under distinct uuids, each entry's pair is what the store holds after the batch. */
  lemma EntryWritesStoreEach(t: Table, questionnaireId: Option<string>, entries: Gemini.Entries,
                             uuids: seq<string>, digest: Digest)
    requires |uuids| == |entries|
    requires forall i, j :: 0 <= i < j < |uuids| ==> uuids[i] != uuids[j]
    ensures var table := ApplyWrites(t, EntryWrites(questionnaireId, entries, uuids, digest));
      forall i :: 0 <= i < |entries| ==>
        var a := EntryWrite(questionnaireId, entries[i], uuids[i], digest).value;
        && Key(uuids[i]) in table
        && table[Key(uuids[i])] == Record(ARow(a), Labels(a))
  {
    var ws := EntryWrites(questionnaireId, entries, uuids, digest);
    EntryWritesDistinct(questionnaireId, entries, uuids, digest);
    ApplyWritesStores(t, ws);
    forall i | 0 <= i < |entries|
      ensures var a := EntryWrite(questionnaireId, entries[i], uuids[i], digest).value;
              Key(uuids[i]) in ApplyWrites(t, ws) && ApplyWrites(t, ws)[Key(uuids[i])] == Record(ARow(a), Labels(a))
    {
      assert ws[i] == EntryWrite(questionnaireId, entries[i], uuids[i], digest);
    }
  }

  /** The pairs of a batch written in order store each entry as `save`
      would, keep every other record, and keep a consistent store
      consistent. */
  lemma EntryWritesStore(t: Table, questionnaireId: Option<string>, entries: Gemini.Entries,
                         uuids: seq<string>, digest: Digest)
    requires |uuids| == |entries|
    requires forall i, j :: 0 <= i < j < |uuids| ==> uuids[i] != uuids[j]
    ensures var table := ApplyWrites(t, EntryWrites(questionnaireId, entries, uuids, digest));
      && (forall i :: 0 <= i < |entries| ==>
            var a := EntryWrite(questionnaireId, entries[i], uuids[i], digest).value;
            && Key(uuids[i]) in table
            && table[Key(uuids[i])] == Record(ARow(a), Labels(a)))
      && (forall k :: k in t && (forall i :: 0 <= i < |uuids| ==> k != Key(uuids[i])) ==>
            k in table && table[k] == t[k])
      && (Consistent(t) ==> Consistent(table))
  {
    var ws := EntryWrites(questionnaireId, entries, uuids, digest);
    EntryWritesStoreEach(t, questionnaireId, entries, uuids, digest);
    forall k | k in t && (forall i :: 0 <= i < |uuids| ==> k != Key(uuids[i]))
      ensures k in ApplyWrites(t, ws) && ApplyWrites(t, ws)[k] == t[k]
    {
      ApplyWritesKeeps(t, ws, k);
    }
    if Consistent(t) {
      ApplyWritesConsistent(t, ws);
    }
  }

  /** With distinct uuids every entry ends up stored under `answer:<uuid>`
      exactly as `save` would write it; nothing else changes, and a
      consistent store stays consistent. */
  lemma BatchCreateStores(t: Table, questionnaireId: Option<string>, entries: Gemini.Entries,
                          uuids: seq<string>, digest: Digest)
    requires |uuids| == |entries|
    requires forall i, j :: 0 <= i < j < |uuids| ==> uuids[i] != uuids[j]
    ensures var table := BatchCreate(t, questionnaireId, entries, uuids, digest).table;
      && (forall i :: 0 <= i < |entries| ==>
            var a := EntryWrite(questionnaireId, entries[i], uuids[i], digest).value;
            && Key(uuids[i]) in table
            && table[Key(uuids[i])] == Record(ARow(a), Labels(a)))
      && (forall k :: k in t && (forall i :: 0 <= i < |uuids| ==> k != Key(uuids[i])) ==>
            k in table && table[k] == t[k])
      && (Consistent(t) ==> Consistent(table))
  {
    BatchCreateIsApplyWrites(t, questionnaireId, entries, uuids, digest);
    EntryWritesStore(t, questionnaireId, entries, uuids, digest);
  }

  /** A record under a key none of the pairs write survives them. */
  lemma {:induction false} ApplyWritesKeeps(t: Table, ws: seq<Write>, k: string)
    requires k in t
    requires forall i :: 0 <= i < |ws| ==> ws[i].key != k
    ensures k in ApplyWrites(t, ws) && ApplyWrites(t, ws)[k] == t[k]
    decreases |ws|
  {
    if |ws| > 0 {
      ApplyWritesKeeps(t[ws[0].key := Record(ARow(ws[0].value), ws[0].labels)], ws[1..], k);
    }
  }

  /** Whatever the uuids, a batch leaves every record outside its
      `answer:<uuid>` keys as it was. */
  lemma BatchCreateKeeps(t: Table, questionnaireId: Option<string>, entries: Gemini.Entries,
                         uuids: seq<string>, digest: Digest, k: string)
    requires |uuids| == |entries|
    requires k in t
    requires forall i :: 0 <= i < |uuids| ==> k != Key(uuids[i])
    ensures var r := BatchCreate(t, questionnaireId, entries, uuids, digest);
            k in r.table && r.table[k] == t[k]
  {
    BatchCreateIsApplyWrites(t, questionnaireId, entries, uuids, digest);
    ApplyWritesKeeps(t, EntryWrites(questionnaireId, entries, uuids, digest), k);
  }

  // ---------------------------------------------------------------- listing

  /** Items after the first page: what following `next` still delivers. */
  function Remaining<T>(p: Page<T>): seq<T>
  {
    match p
    case LastPage(_) => []
    case Page(_, next) => AllItems(next)
  }

  lemma ValuesAppend(a: seq<Item>, b: seq<Item>)
    ensures Values(a + b) == Values(a) + Values(b)
  {
  }

  /** `Answer.listByQuestionnaireId`: the rows of the first page, then of
      every page reached by following `next` until it is absent. */
  method ListByQuestionnaireId(first: Page<Item>) returns (answers: seq<AnswerRow>)
    ensures answers == Values(AllItems(first))
    ensures |answers| == |AllItems(first)|
  {
    answers := Values(first.items);
    var page := first;
    while page.Page?
      invariant answers + Values(Remaining(page)) == Values(AllItems(first))
      decreases page
    {
      page := page.next;
      ValuesAppend(page.items, Remaining(page));
      answers := answers + Values(page.items);
    }
  }

  // ------------------------------------------------ lookup by questionnaire

  const MultipleAnswersError: string := "Multiple answers found for questionnaire and question"

  /** `Answer.getByQuestionnaireIdAndHash`: looks only at the first page of
      the exact-label query; more than one item is an integrity error. */
  function GetByQuestionnaireIdAndHash(first: Page<Item>): (r: Result<Option<AnswerRow>, string>)
    ensures r.Failure? <==> |first.items| > 1
    ensures r.Failure? ==> r.error == MultipleAnswersError
    ensures r == Success(None) <==> |first.items| == 0
    ensures |first.items| == 1 ==> r == Success(Some(first.items[0].value))
  {
    if |first.items| > 1 then Failure(MultipleAnswersError)
    else if |first.items| == 1 then Success(Some(first.items[0].value))
    else Success(None)
  }

  /** On a single page listing the store's matches, the lookup is empty iff no
      record carries the label, fails iff two records do, and otherwise
      returns the one stored row. */
  lemma GetByQuestionnaireIdAndHashInStore(t: Table, questionnaireId: string, hash: string,
                                           items: seq<Item>)
    requires Lists(t, AnswerPattern(questionnaireId, hash), items)
    ensures var r := GetByQuestionnaireIdAndHash(LastPage(items));
      && (r == Success(None) <==>
            forall k :: k in t ==> !Labelled(t[k], "label1", AnswerPattern(questionnaireId, hash)))
      && (r.Failure? <==>
            exists k1, k2 :: k1 in t && k2 in t && k1 != k2
              && Labelled(t[k1], "label1", AnswerPattern(questionnaireId, hash))
              && Labelled(t[k2], "label1", AnswerPattern(questionnaireId, hash)))
      && (r.Success? && r.value.Some? ==>
            exists k :: k in t && t[k].value == ARow(r.value.value)
              && Labelled(t[k], "label1", AnswerPattern(questionnaireId, hash)))
  {
    var p := AnswerPattern(questionnaireId, hash);
    if |items| > 1 {
      assert items[0].key != items[1].key;
      assert Labelled(t[items[0].key], "label1", p) && Labelled(t[items[1].key], "label1", p);
    }
    if |items| > 0 {
      assert items[0].key in t;
    }
    if exists k1, k2 :: k1 in t && k2 in t && k1 != k2 && Labelled(t[k1], "label1", p)
                         && Labelled(t[k2], "label1", p) {
      var k1, k2 :| k1 in t && k2 in t && k1 != k2 && Labelled(t[k1], "label1", p)
                    && Labelled(t[k2], "label1", p);
      var i1 :| 0 <= i1 < |items| && items[i1].key == k1;
      var i2 :| 0 <= i2 < |items| && items[i2].key == k2;
      assert i1 != i2;
    }
  }

  /** For colon-free ids (uuids are), the listing query of a questionnaire
      selects exactly the labels of that questionnaire's answers. */
  lemma AnswersPatternSelects(questionnaireId: string, owner: string, hash: string)
    requires ':' !in questionnaireId && ':' !in owner
    ensures Matches(AnswersPattern(questionnaireId), QuestionnaireLabel(owner, hash))
            <==> owner == questionnaireId
  {
    var pre := "questionnaire:" + questionnaireId + ":";
    var lab := QuestionnaireLabel(owner, hash);
    assert AnswersPattern(questionnaireId) == pre + "*";
    WildcardMatches(pre, lab);
    if pre <= lab {
      var n := |questionnaireId|;
      var m := |owner|;
      assert pre[14 + n] == ':';
      assert lab[14 + m] == ':';
      forall j | 14 <= j < 14 + n ensures pre[j] != ':' {
        assert pre[j] == questionnaireId[j - 14];
        assert questionnaireId[j - 14] in questionnaireId;
      }
      forall j | 14 <= j < 14 + m ensures lab[j] != ':' {
        assert lab[j] == owner[j - 14];
        assert owner[j - 14] in owner;
      }
      if n < m {
        assert false;
      }
      if m < n {
        assert false;
      }
      assert questionnaireId == pre[14..14 + n];
      assert owner == lab[14..14 + n];
    }
    if owner == questionnaireId {
      assert lab == pre + hash;
    }
  }

  // ----------------------------------------------------------------- update

  /** The row `update({ approved, answer })` saves: `approved` becomes the
      argument (so omitting it clears an approval); `answer` is replaced by
      its trimmed value only when a non-empty one is given. */
  function Updated(a: AnswerRow, approved: Option<bool>, answer: Option<string>): (r: AnswerRow)
    ensures r.approved == approved
    ensures r.answer == (if Truthy(answer) then Some(Trim(answer.value)) else a.answer)
    ensures r.question == a.question && r.id == a.id
    ensures r.uuid == a.uuid && r.questionnaireId == a.questionnaireId
  {
    a.(approved := approved, answer := if Truthy(answer) then Some(Trim(answer.value)) else a.answer)
  }

  /** `Answer.update`: computes the new row and overwrites it in place. */
  function Update(t: Table, a: AnswerRow, approved: Option<bool>, answer: Option<string>): (r: Table)
    ensures r.Keys == t.Keys + {Key(a.uuid)}
    ensures r[Key(a.uuid)] == Record(ARow(Updated(a, approved, answer)), Labels(a))
    ensures forall k :: k in t && k != Key(a.uuid) ==> r[k] == t[k]
  {
    SaveAnswer(t, Updated(a, approved, answer))
  }

  /** An update overwrites the record of a stored answer under the same key
      with the same labels: it never adds a record. */
  lemma UpdateInPlace(t: Table, a: AnswerRow, approved: Option<bool>, answer: Option<string>)
    requires Consistent(t)
    requires Key(a.uuid) in t
    ensures Update(t, a, approved, answer).Keys == t.Keys
    ensures Update(t, a, approved, answer)[Key(a.uuid)].labels == Labels(a)
    ensures Consistent(Update(t, a, approved, answer))
  {
  }

  /** Repeating an update changes nothing more. */
  lemma UpdateIdempotent(a: AnswerRow, approved: Option<bool>, answer: Option<string>)
    ensures Updated(Updated(a, approved, answer), approved, answer) == Updated(a, approved, answer)
  {
  }

  // --------------------------------------------------------------- approval

  /** `update({ approved: true })` on each row in turn. */
  function ApproveAll(t: Table, rows: seq<AnswerRow>): Table
    decreases |rows|
  {
    if |rows| == 0 then t else ApproveAll(Update(t, rows[0], Some(true), None), rows[1..])
  }

  /** The keys `save` wrote for `rows`. */
  function UuidKeys(rows: seq<AnswerRow>): set<string>
  {
    set i | 0 <= i < |rows| :: Key(rows[i].uuid)
  }

  /** Whatever the store holds, approving `rows` in turn touches only their
      keys. */
  lemma {:induction false} ApproveAllKeys(t: Table, rows: seq<AnswerRow>)
    ensures ApproveAll(t, rows).Keys == t.Keys + UuidKeys(rows)
    ensures forall k :: k in t && k !in UuidKeys(rows) ==> ApproveAll(t, rows)[k] == t[k]
    decreases |rows|
  {
    if |rows| > 0 {
      var t1 := Update(t, rows[0], Some(true), None);
      var tail := rows[1..];
      assert ApproveAll(t, rows) == ApproveAll(t1, tail);
      ApproveAllKeys(t1, tail);
      UuidKeysCons(rows);
    }
  }

  lemma UuidKeysCons(rows: seq<AnswerRow>)
    requires |rows| > 0
    ensures UuidKeys(rows) == {Key(rows[0].uuid)} + UuidKeys(rows[1..])
  {
    forall k | k in UuidKeys(rows) ensures k in {Key(rows[0].uuid)} + UuidKeys(rows[1..]) {
      var i :| 0 <= i < |rows| && k == Key(rows[i].uuid);
      if i > 0 { assert k == Key(rows[1..][i - 1].uuid); }
    }
  }

  /** `rec` holds some row of `rows` with uuid `uuid`, approved, its text untouched. */
  predicate ApprovedFrom(rec: Record<Row>, rows: seq<AnswerRow>, uuid: string)
  {
    exists j :: 0 <= j < |rows| && rows[j].uuid == uuid
                && rec == Record(ARow(rows[j].(approved := Some(true))), Labels(rows[j]))
  }

  /** Whatever the store holds, after approving `rows` in turn each of their
      keys holds one of them, approved. */
  lemma {:induction false} ApproveAllApproves(t: Table, rows: seq<AnswerRow>, i: nat)
    requires i < |rows|
    ensures Key(rows[i].uuid) in ApproveAll(t, rows)
    ensures ApprovedFrom(ApproveAll(t, rows)[Key(rows[i].uuid)], rows, rows[i].uuid)
    decreases |rows|
  {
    var t1 := Update(t, rows[0], Some(true), None);
    var tail := rows[1..];
    var r := ApproveAll(t, rows);
    assert r == ApproveAll(t1, tail);
    var k := Key(rows[i].uuid);
    if i > 0 {
      assert rows[i] == tail[i - 1];
      ApproveAllApproves(t1, tail, i - 1);
      var j :| 0 <= j < |tail| && tail[j].uuid == tail[i - 1].uuid
               && r[k] == Record(ARow(tail[j].(approved := Some(true))), Labels(tail[j]));
      assert rows[j + 1] == tail[j];
    } else if i' :| 0 <= i' < |tail| && tail[i'].uuid == rows[0].uuid {
      ApproveAllApproves(t1, tail, i');
      var j :| 0 <= j < |tail| && tail[j].uuid == tail[i'].uuid
               && r[k] == Record(ARow(tail[j].(approved := Some(true))), Labels(tail[j]));
      assert rows[j + 1] == tail[j];
    } else {
      forall i' | 0 <= i' < |tail| ensures k != Key(tail[i'].uuid) {
        KeyInjective(rows[0].uuid, tail[i'].uuid);
      }
      ApproveAllKeys(t1, tail);
      assert r[k] == t1[k];
      assert Updated(rows[0], Some(true), None) == rows[0].(approved := Some(true));
    }
  }

  /** `Answer.approveForQuestionnaire`: approves every listed answer. Only
      the listed answers' keys change, and each one ends up holding a listed
      row with that uuid, approved and otherwise as listed (`ApprovedFrom`). */
  function ApproveForQuestionnaire(t: Table, first: Page<Item>): (r: Table)
    ensures var rows := Values(AllItems(first));
      && r.Keys == t.Keys + UuidKeys(rows)
      && (forall k :: k in t && k !in UuidKeys(rows) ==> r[k] == t[k])
      && (forall i :: 0 <= i < |rows| ==> ApprovedFrom(r[Key(rows[i].uuid)], rows, rows[i].uuid))
  {
    var rows := Values(AllItems(first));
    ApproveAllKeys(t, rows);
    forall i | 0 <= i < |rows|
      ensures Key(rows[i].uuid) in ApproveAll(t, rows)
      ensures ApprovedFrom(ApproveAll(t, rows)[Key(rows[i].uuid)], rows, rows[i].uuid)
    {
      ApproveAllApproves(t, rows, i);
    }
    ApproveAll(t, rows)
  }

  /** A record with its answer row approved. */
  function ApprovedRecord(r: Record<Row>): Record<Row>
  {
    if r.value.ARow? then Record(ARow(r.value.a.(approved := Some(true))), r.labels) else r
  }

  /** Reference definition: every answer record of the questionnaire
      approved, its text untouched, every other record as it was. */
  function ApprovedTable(t: Table, questionnaireId: string): Table
  {
    map k | k in t :: if Labelled(t[k], "label1", AnswersPattern(questionnaireId))
                      then ApprovedRecord(t[k]) else t[k]
  }

  function ItemKeys(items: seq<Item>): set<string>
  {
    set i | 0 <= i < |items| :: items[i].key
  }

  /** The store with the records under `keys` approved. */
  function WithKeysApproved(t: Table, keys: set<string>): Table
  {
    map k | k in t :: if k in keys then ApprovedRecord(t[k]) else t[k]
  }

  lemma ApproveStep(t: Table, k0: string, keys: set<string>)
    requires k0 in t && k0 !in keys
    ensures WithKeysApproved(t[k0 := ApprovedRecord(t[k0])], keys) == WithKeysApproved(t, {k0} + keys)
  {
  }

  /** Approving one stored answer is approving its record. */
  lemma ApproveOne(t: Table, a: AnswerRow)
    requires Consistent(t)
    requires Key(a.uuid) in t && t[Key(a.uuid)].value == ARow(a)
    ensures Update(t, a, Some(true), None) == t[Key(a.uuid) := ApprovedRecord(t[Key(a.uuid)])]
    ensures Consistent(Update(t, a, Some(true), None))
  {
  }

  lemma {:induction false} ApproveAllItems(t: Table, items: seq<Item>)
    requires Consistent(t)
    requires DistinctKeys(items)
    requires forall i :: 0 <= i < |items| ==> items[i].key in t && t[items[i].key].value == ARow(items[i].value)
    ensures ApproveAll(t, Values(items)) == WithKeysApproved(t, ItemKeys(items))
    decreases |items|
  {
    if |items| == 0 {
      assert WithKeysApproved(t, ItemKeys(items)) == t;
    } else {
      var k0 := items[0].key;
      var a := items[0].value;
      assert k0 == Key(a.uuid);
      ApproveOne(t, a);
      var t1 := Update(t, a, Some(true), None);
      var rest := items[1..];
      RestStillStored(t, items, t1);
      ItemsCons(items);
      ApproveAllItems(t1, rest);
      ApproveStep(t, k0, ItemKeys(rest));
    }
  }

  /** Splitting off the first listed item: its row heads the rows, its key
      joins the other keys and, with distinct keys, is not among them. */
  lemma ItemsCons(items: seq<Item>)
    requires |items| > 0
    requires DistinctKeys(items)
    ensures Values(items)[1..] == Values(items[1..])
    ensures Values(items)[0] == items[0].value
    ensures DistinctKeys(items[1..])
    ensures ItemKeys(items) == {items[0].key} + ItemKeys(items[1..])
    ensures items[0].key !in ItemKeys(items[1..])
  {
    var rest := items[1..];
    assert ItemKeys(items) == {items[0].key} + ItemKeys(rest) by {
      forall k | k in ItemKeys(items) ensures k in {items[0].key} + ItemKeys(rest) {
        var i :| 0 <= i < |items| && items[i].key == k;
        if i > 0 { assert rest[i - 1] == items[i]; }
      }
      forall k | k in ItemKeys(rest) ensures k in ItemKeys(items) {
        var i :| 0 <= i < |rest| && rest[i].key == k;
        assert items[i + 1] == rest[i];
      }
    }
    forall i | 0 <= i < |rest| ensures rest[i].key != items[0].key {
      assert items[i + 1] == rest[i];
    }
  }

  /** Updating the first listed answer leaves the others stored as listed. */
  lemma RestStillStored(t: Table, items: seq<Item>, t1: Table)
    requires |items| > 0
    requires DistinctKeys(items)
    requires forall i :: 0 <= i < |items| ==> items[i].key in t && t[items[i].key].value == ARow(items[i].value)
    requires t1 == t[items[0].key := ApprovedRecord(t[items[0].key])]
    ensures forall i :: 0 <= i < |items[1..]| ==>
              items[1..][i].key in t1 && t1[items[1..][i].key].value == ARow(items[1..][i].value)
  {
    forall i | 0 <= i < |items[1..]|
      ensures items[1..][i].key in t1 && t1[items[1..][i].key].value == ARow(items[1..][i].value)
    {
      assert items[1..][i] == items[i + 1];
      assert items[i + 1].key != items[0].key;
    }
  }

  /** Approving exactly the labelled keys is the reference update. */
  lemma LabelledKeysApproved(t: Table, keys: set<string>, questionnaireId: string)
    requires forall k :: k in t ==> (k in keys <==> Labelled(t[k], "label1", AnswersPattern(questionnaireId)))
    ensures WithKeysApproved(t, keys) == ApprovedTable(t, questionnaireId)
  {
  }

  /** Approving a questionnaire's listed answers is exactly the reference
      update: every answer of the questionnaire approved, no answer text
      changed, every other record untouched. */
  lemma ApproveForQuestionnaireIsReference(t: Table, questionnaireId: string, first: Page<Item>)
    requires Consistent(t)
    requires ListsAnswers(t, questionnaireId, AllItems(first))
    ensures ApproveForQuestionnaire(t, first) == ApprovedTable(t, questionnaireId)
  {
    var items := AllItems(first);
    var p := AnswersPattern(questionnaireId);
    ApproveAllItems(t, items);
    forall k | k in t
      ensures (k in ItemKeys(items)) == Labelled(t[k], "label1", p)
    {
      if Labelled(t[k], "label1", p) {
        var i :| 0 <= i < |items| && items[i].key == k;
      }
    }
    LabelledKeysApproved(t, ItemKeys(items), questionnaireId);
  }

  // ------------------------------------------------------------ reprocess

  /** The type and customer type a reprocess or answer event uses: the owning
      questionnaire's when it is set and stored, `other` otherwise. */
  function Context(t: Table, a: AnswerRow): (c: (QuestionnaireType, CustomerType))
    ensures (!Truthy(a.questionnaireId) || LookupQuestionnaire(t, a.questionnaireId.value).None?)
              ==> c == (OtherType, OtherCustomer)
    ensures (Truthy(a.questionnaireId) && LookupQuestionnaire(t, a.questionnaireId.value).Some?)
              ==> var q := LookupQuestionnaire(t, a.questionnaireId.value).value;
                  c == (q.qtype, q.customerType)
  {
    if Truthy(a.questionnaireId) then
      match LookupQuestionnaire(t, a.questionnaireId.value)
      case Some(q) => (q.qtype, q.customerType)
      case None => (OtherType, OtherCustomer)
    else (OtherType, OtherCustomer)
  }

  const ReprocessError: string := "Something went wrong re-processing"

  /** Stands for the generator's own exception, which `reprocess` does not
      catch; its message is not modelled. */
  const GenerationFailed: string := "answer generation failed"

  /** `Answer.reprocess`: asks the generator for this one question and stores
      the answer found under the exact question text. A generator that
      throws rejects with its own error; a reply with no truthy answer for
      the question throws "Something went wrong re-processing". Either way
      the store is left as it was. The update carries no `approved`, so a
      previous approval is cleared. */
  function Reprocess(t: Table, a: AnswerRow, gen: Generator): (r: Result<Table, string>)
    ensures var c := Context(t, a);
            var reply := gen([a.question], c.0, c.1);
      && (r.Success? <==> reply.Some? && Truthy(Gemini.Lookup(reply.value, a.question)))
      && (reply.None? ==> r == Failure(GenerationFailed))
      && (r.Failure? && r.error == ReprocessError <==>
            reply.Some? && !Truthy(Gemini.Lookup(reply.value, a.question)))
      && (r.Success? ==>
            Key(a.uuid) in r.value &&
            var stored := r.value[Key(a.uuid)].value;
            && stored == ARow(Updated(a, None, Gemini.Lookup(reply.value, a.question)))
            && stored.a.answer == Some(Trim(Gemini.Lookup(reply.value, a.question).value))
            && stored.a.approved.None?
            && (forall k :: k in t && k != Key(a.uuid) ==> k in r.value && r.value[k] == t[k]))
  {
    var c := Context(t, a);
    match gen([a.question], c.0, c.1)
    case None => Failure(GenerationFailed)
    case Some(reply) =>
      if Truthy(Gemini.Lookup(reply, a.question)) then
        Success(Update(t, a, None, Gemini.Lookup(reply, a.question)))
      else
        Failure(ReprocessError)
  }

  // ---------------------------------------------------------------- delete

  /** `answer.delete()` as written: removes `answer:<id>`, the key of the
      question hash, which is not where `save` put the row. */
  function DeleteAsWritten(t: Table, a: AnswerRow): (t': Table)
    ensures t'.Keys == t.Keys - {Key(a.id)}
    ensures forall k :: k in t' ==> t'[k] == t[k]
  {
    t - {Key(a.id)}
  }

  /** A saved answer survives its own deletion as written: its 12-digit hash
      and its 36-character uuid make different keys. */
  lemma DeleteAsWrittenKeepsRow(t: Table, a: AnswerRow)
    requires Key(a.uuid) in t
    requires |a.uuid| == 36 && |a.id| == 12
    ensures Key(a.uuid) in DeleteAsWritten(t, a)
    ensures DeleteAsWritten(t, a)[Key(a.uuid)] == t[Key(a.uuid)]
    ensures DeleteAsWritten(t, a) == t - {Key(a.id)}
  {
    assert |Key(a.uuid)| != |Key(a.id)|;
  }

  /** `answer.delete()` as evidently intended: removes the key `save` wrote. */
  function Delete(t: Table, a: AnswerRow): (t': Table)
    ensures Key(a.uuid) !in t'
    ensures t'.Keys == t.Keys - {Key(a.uuid)}
    ensures forall k :: k in t' ==> t'[k] == t[k]
    ensures Consistent(t) ==> Consistent(t')
  {
    t - {Key(a.uuid)}
  }

  /** A saved answer is gone after `Delete`. */
  lemma DeleteRemovesSaved(t: Table, a: AnswerRow)
    ensures Key(a.uuid) !in Delete(SaveAnswer(t, a), a)
    ensures Delete(SaveAnswer(t, a), a) == t - {Key(a.uuid)}
  {
  }

  /** Deleting an answer that was saved for the first time undoes the save. */
  lemma DeleteUndoesFirstSave(t: Table, a: AnswerRow)
    requires Key(a.uuid) !in t
    ensures Delete(SaveAnswer(t, a), a) == t
  {
    DeleteRemovesSaved(t, a);
    assert t - {Key(a.uuid)} == t;
  }

  // ---------------------------------------------------------------- events

  /** `Answer.onCreated` for a newly stored answer `a`: publishes an
      `answer:process` event carrying the row after `delay` (a random
      0-999 ms) and moves the owning questionnaire from PROCESSING to
      ANSWERING; any other state is left alone. */
  function OnCreated(w: World, a: AnswerRow, delay: int, now: int): (w': World)
    requires 0 <= delay < 1000
    ensures w'.published == w.published + [Event(AnswerTopic, delay, AnswerBody(a))]
    ensures Consistent(w.table) ==> Consistent(w'.table) && w'.table.Keys == w.table.Keys
    ensures Consistent(w.table) ==>
              forall k :: k in w.table && w'.table[k] != w.table[k] ==>
                && Truthy(a.questionnaireId)
                && k == Q.Key(a.questionnaireId.value)
                && w.table[k].value.QRow?
                && w.table[k].value.q.state == Processing
                && w'.table[k].value == QRow(Q.ToJson(Q.FromRow(w.table[k].value.q, now)).(state := Answering))
    ensures Consistent(w.table) && Truthy(a.questionnaireId)
            && LookupQuestionnaire(w.table, a.questionnaireId.value).Some?
            && LookupQuestionnaire(w.table, a.questionnaireId.value).value.state == Processing
            ==> LookupQuestionnaire(w'.table, a.questionnaireId.value).Some?
                && LookupQuestionnaire(w'.table, a.questionnaireId.value).value.state == Answering
  {
    var published := w.published + [Event(AnswerTopic, delay, AnswerBody(a))];
    if Truthy(a.questionnaireId) then
      match LookupQuestionnaire(w.table, a.questionnaireId.value)
      case Some(row) =>
        LookupHasId(w.table, a.questionnaireId.value);
        if row.state == Processing then
          World(SaveQuestionnaire(w.table, Q.FromRow(row, now).(state := Answering)), published)
        else World(w.table, published)
      case None => World(w.table, published)
    else World(w.table, published)
  }

  /** Every listed answer has a non-empty answer text. */
  predicate AllAnswered(rows: seq<AnswerRow>)
  {
    forall i :: 0 <= i < |rows| ==> Truthy(rows[i].answer)
  }

  /** `Answer.onAnswerProcessEvent` for the event body `body`: `answered` is
      what the single-question generator returned (`None`: it threw, and the
      handler stops). The answer is stored; then, when every answer now
      listed for the questionnaire (`listing`, read after the update) is
      non-empty, the questionnaire is set COMPLETED, whatever its state, and
      without a completion date. */
  function OnAnswerProcessEvent(w: World, body: AnswerRow, answered: Option<string>,
                                listing: Page<Item>, now: int): (r: Option<World>)
    ensures r.None? <==> answered.None?
    ensures r.Some? ==>
      var t1 := Update(w.table, body, None, answered);
      && r.value.published == w.published
      && Key(body.uuid) in r.value.table
      && r.value.table[Key(body.uuid)] == t1[Key(body.uuid)]
      && t1[Key(body.uuid)].value == ARow(Updated(body, None, answered))
      && (Consistent(w.table) ==>
            && Consistent(r.value.table)
            && r.value.table.Keys == t1.Keys
            && (forall k :: k in t1 && r.value.table[k] != t1[k] ==>
                  && Truthy(body.questionnaireId)
                  && k == Q.Key(body.questionnaireId.value)
                  && AllAnswered(Values(AllItems(listing)))
                  && t1[k].value.QRow?
                  && r.value.table[k].value
                     == QRow(Q.ToJson(Q.FromRow(t1[k].value.q, now)).(state := Completed)))
            && (Truthy(body.questionnaireId) && AllAnswered(Values(AllItems(listing)))
                && LookupQuestionnaire(t1, body.questionnaireId.value).Some?
                ==> var before := LookupQuestionnaire(t1, body.questionnaireId.value).value;
                    var after := LookupQuestionnaire(r.value.table, body.questionnaireId.value);
                    after.Some? && after.value.state == Completed
                    && after.value.dateCompleted == before.dateCompleted))
  {
    if answered.None? then None
    else
      var t1 := Update(w.table, body, None, answered);
      if Truthy(body.questionnaireId) && AllAnswered(Values(AllItems(listing))) then
        match LookupQuestionnaire(t1, body.questionnaireId.value)
        case Some(row) =>
          KeysDisjoint(row.id, body.uuid);
          LookupHasId(t1, body.questionnaireId.value);
          Some(World(SaveQuestionnaire(t1, Q.FromRow(row, now).(state := Completed)), w.published))
        case None => Some(World(t1, w.published))
      else Some(World(t1, w.published))
  }

  /** On a listing of the questionnaire's answers, the all-answered test
      over the listed rows is the all-answered test over the store. */
  lemma AllAnsweredIffStored(t: Table, questionnaireId: string, items: seq<Item>)
    requires ListsAnswers(t, questionnaireId, items)
    ensures AllAnswered(Values(items)) <==>
              forall k :: k in t && Labelled(t[k], "label1", AnswersPattern(questionnaireId))
                ==> Truthy(t[k].value.a.answer)
  {
    var p := AnswersPattern(questionnaireId);
    if forall k :: k in t && Labelled(t[k], "label1", p) ==> Truthy(t[k].value.a.answer) {
      forall i | 0 <= i < |items| ensures Truthy(Values(items)[i].answer) {
        assert t[items[i].key].value == ARow(items[i].value);
      }
    } else {
      var k :| k in t && Labelled(t[k], "label1", p) && !Truthy(t[k].value.a.answer);
      var i :| 0 <= i < |items| && items[i].key == k;
      assert !Truthy(Values(items)[i].answer);
    }
  }

  /** The completion check is the all-answered test on the store: with a
      listing of the questionnaire's answers, the handler completes a
      not-yet-completed questionnaire iff every stored answer of it is
      non-empty. */
  lemma AnswerProcessCompletesIffAllAnswered(w: World, body: AnswerRow, answered: string,
                                            listing: Page<Item>, now: int)
    requires Consistent(w.table)
    requires Truthy(body.questionnaireId)
    requires var t1 := Update(w.table, body, None, Some(answered));
             LookupQuestionnaire(t1, body.questionnaireId.value).Some?
             && LookupQuestionnaire(t1, body.questionnaireId.value).value.state != Completed
             && ListsAnswers(t1, body.questionnaireId.value, AllItems(listing))
    ensures var t1 := Update(w.table, body, None, Some(answered));
            var r := OnAnswerProcessEvent(w, body, Some(answered), listing, now);
            var p := AnswersPattern(body.questionnaireId.value);
      r.Some? &&
      (LookupQuestionnaire(r.value.table, body.questionnaireId.value).Some? &&
       LookupQuestionnaire(r.value.table, body.questionnaireId.value).value.state == Completed
       <==> forall k :: k in t1 && Labelled(t1[k], "label1", p) ==> Truthy(t1[k].value.a.answer))
  {
    var t1 := Update(w.table, body, None, Some(answered));
    AllAnsweredIffStored(t1, body.questionnaireId.value, AllItems(listing));
    var r := OnAnswerProcessEvent(w, body, Some(answered), listing, now);
    var qk := Q.Key(body.questionnaireId.value);
    if !AllAnswered(Values(AllItems(listing))) {
      assert r.value.table[qk] == t1[qk];
    }
  }

  /** The handler has no state guard: an ERROR questionnaire whose answers
      are all filled is moved to COMPLETED. */
  lemma AnswerProcessLeavesError(w: World, body: AnswerRow, answered: string,
                                 listing: Page<Item>, now: int)
    requires Consistent(w.table)
    requires Truthy(body.questionnaireId)
    requires AllAnswered(Values(AllItems(listing)))
    requires var t1 := Update(w.table, body, None, Some(answered));
             LookupQuestionnaire(t1, body.questionnaireId.value).Some?
             && LookupQuestionnaire(t1, body.questionnaireId.value).value.state == Error
    ensures var r := OnAnswerProcessEvent(w, body, Some(answered), listing, now);
            r.Some? && LookupQuestionnaire(r.value.table, body.questionnaireId.value).Some?
            && LookupQuestionnaire(r.value.table, body.questionnaireId.value).value.state == Completed
  {
  }
}

=== FILE: api.dfy ===
/** The body check of `POST /api/questionnaire` in `index.ts` and the
    arguments it hands to `Questionnaire.create`. */
module Api {
  import opened Wrappers
  import opened Text
  import opened Enums
  import opened QuestionnaireRows
  import opened Db
  import Questionnaires

  /** The request body fields the route reads; a missing field is `None`. */
  datatype Body = Body(text: Option<string>, qtype: Option<string>, customerType: Option<string>)

  /** The HTTP reply: a status with either an error message or the new questionnaire. */
  datatype Response = Rejected(status: nat, error: string) | Created(status: nat, questionnaire: Questionnaire)

  const TextRequired: string := "Text is required"
  const InvalidType: string := "Invalid questionnaire type"
  const InvalidCustomer: string := "Invalid customer type"

  /** The validated arguments of `create`. */
  datatype Args = Args(text: string, qtype: QuestionnaireType, customerType: CustomerType)

  /** The three checks, in order; the first to fail decides the message. A
      type is accepted exactly when it is one of the enum's string values
      (the empty string, being falsy, is none of them). */
  function Validate(b: Body): (r: Result<Args, string>)
    ensures !Truthy(b.text) ==> r == Failure(TextRequired)
    ensures Truthy(b.text) && (b.qtype.None? || b.qtype.value !in TypeValues)
            ==> r == Failure(InvalidType)
    ensures Truthy(b.text) && b.qtype.Some? && b.qtype.value in TypeValues
            && (b.customerType.None? || b.customerType.value !in CustomerValues)
            ==> r == Failure(InvalidCustomer)
    ensures r.Success? <==>
              && Truthy(b.text)
              && b.qtype.Some? && b.qtype.value in TypeValues
              && b.customerType.Some? && b.customerType.value in CustomerValues
    ensures r.Success? ==>
              && r.value.text == b.text.value
              && TypeValue(r.value.qtype) == b.qtype.value
              && CustomerValue(r.value.customerType) == b.customerType.value
  {
    if !Truthy(b.text) then Failure(TextRequired)
    else match (if b.qtype.Some? then ParseType(b.qtype.value) else None)
      case None => Failure(InvalidType)
      case Some(t) =>
        match (if b.customerType.Some? then ParseCustomer(b.customerType.value) else None)
        case None => Failure(InvalidCustomer)
        case Some(c) => Success(Args(b.text.value, t, c))
  }

  /** The route: a rejected body answers 400 and changes nothing; an
      accepted one creates a questionnaire from exactly the body's text, type
      and customer type, with no name, and answers 200 with it. */
  function Post(w: World, b: Body, uuid: string, now: int): (r: (World, Response))
    ensures Validate(b).Failure? ==> r == (w, Rejected(400, Validate(b).error))
    ensures Validate(b).Success? ==>
      && r.1.Created?
      && r.1.status == 200
      && var q := r.1.questionnaire;
      && q.id == uuid
      && q.text == b.text.value
      && q.name.None?
      && TypeValue(q.qtype) == b.qtype.value
      && CustomerValue(q.customerType) == b.customerType.value
      && q.state == Loaded
      && r.0.published == w.published
      && LookupQuestionnaire(r.0.table, uuid) == Some(ToJson(q))
  {
    match Validate(b)
    case Failure(e) => (w, Rejected(400, e))
    case Success(args) =>
      var (w', q) := Questionnaires.Create(w, args.text, None, Some(args.qtype), Some(args.customerType), uuid, now);
      (w', Created(200, q))
  }

  /** A body built from any type and customer type and a non-empty text is
      accepted, and the questionnaire carries those very values. */
  lemma WellFormedBodyAccepted(w: World, text: string, t: QuestionnaireType, c: CustomerType,
                               uuid: string, now: int)
    requires |text| > 0
    ensures var r := Post(w, Body(Some(text), Some(TypeValue(t)), Some(CustomerValue(c))), uuid, now);
            && r.1.Created?
            && r.1.questionnaire.text == text
            && r.1.questionnaire.qtype == t
            && r.1.questionnaire.customerType == c
  {
    TypeRoundTrip(t);
    CustomerRoundTrip(c);
  }
}

=== FILE: db.dfy ===
/** The single store both models share, the published-event list standing in
    for the event bus, and how `save` writes each kind of row. */
module Db {
  import opened Wrappers
  import opened Store
  import Q = QuestionnaireRows
  import A = AnswerRows

  /** A stored value: a questionnaire row or an answer row. */
  datatype Row = QRow(q: Q.QuestionnaireRow) | ARow(a: A.AnswerRow)

  /** The key-value store: key to record. */
  type Table = map<string, Record<Row>>

  /** An event body: a batch of questions to answer, or an answer to process. */
  datatype Payload =
    | BatchBody(id: string, totalBatches: nat, batchNumber: nat, batch: seq<string>)
    | AnswerBody(row: A.AnswerRow)

  /** One `events.publish(topic, { after }, body)` call. */
  datatype Event = Event(topic: string, after: int, body: Payload)

  /** The store plus every event published so far, oldest first. */
  datatype World = World(table: Table, published: seq<Event>)

  const BatchTopic: string := "questionnaire.answer.batch"
  const AnswerTopic: string := "answer:process"

  /** Every record sits under the key, and carries the labels, that `save`
      gives its row. */
  predicate Consistent(t: Table)
  {
    forall k :: k in t ==>
      match t[k].value
      case QRow(r) => k == Q.Key(r.id) && t[k].labels == Q.Labels(r.name)
      case ARow(a) => k == A.Key(a.uuid) && t[k].labels == A.Labels(a)
  }

  /** `Questionnaire.save`: writes `toJson()` under `questionnaire:<id>`. */
  function SaveQuestionnaire(t: Table, q: Q.Questionnaire): (t': Table)
    ensures t'.Keys == t.Keys + {Q.Key(q.id)}
    ensures t'[Q.Key(q.id)].value == QRow(Q.ToJson(q))
    ensures t'[Q.Key(q.id)].labels == map["label1" := Q.NameLabel(q.name)]
    ensures forall k :: k in t && k != Q.Key(q.id) ==> t'[k] == t[k]
    ensures Consistent(t) ==> Consistent(t')
  {
    t[Q.Key(q.id) := Record(QRow(Q.ToJson(q)), Q.Labels(q.name))]
  }

  /** `Answer.save`: writes the row under `answer:<uuid>`, replacing any
      record already there. */
  function SaveAnswer(t: Table, a: A.AnswerRow): (t': Table)
    ensures t'.Keys == t.Keys + {A.Key(a.uuid)}
    ensures t'[A.Key(a.uuid)].value == ARow(a)
    ensures t'[A.Key(a.uuid)].labels == A.Labels(a)
    ensures forall k :: k in t && k != A.Key(a.uuid) ==> t'[k] == t[k]
    ensures Consistent(t) ==> Consistent(t')
  {
    t[A.Key(a.uuid) := Record(ARow(a), A.Labels(a))]
  }

  /** The questionnaire row stored under `questionnaire:<id>`, if any. */
  function LookupQuestionnaire(t: Table, id: string): (r: Option<Q.QuestionnaireRow>)
    ensures r.Some? <==> Q.Key(id) in t && t[Q.Key(id)].value.QRow?
    ensures r.Some? ==> t[Q.Key(id)].value == QRow(r.value)
  {
    if Q.Key(id) in t && t[Q.Key(id)].value.QRow? then Some(t[Q.Key(id)].value.q) else None
  }

  /** One item of a label query: the record's key and its answer row. */
  datatype Item = Item(key: string, value: A.AnswerRow)

  predicate DistinctKeys(items: seq<Item>)
  {
    forall i, j :: 0 <= i < j < |items| ==> items[i].key != items[j].key
  }

  /** `items` is what a `label1` query for `pattern` returns from `t`: every
      selected record exactly once, each an answer row as stored. */
  predicate Lists(t: Table, pattern: string, items: seq<Item>)
  {
    && DistinctKeys(items)
    && (forall i :: 0 <= i < |items| ==>
          && items[i].key in t
          && t[items[i].key].value == ARow(items[i].value)
          && Labelled(t[items[i].key], "label1", pattern))
    && (forall k :: k in t && Labelled(t[k], "label1", pattern) ==>
          exists i :: 0 <= i < |items| && items[i].key == k)
  }

  /** `items` lists the answers of questionnaire `questionnaireId`. */
  predicate ListsAnswers(t: Table, questionnaireId: string, items: seq<Item>)
  {
    Lists(t, A.AnswersPattern(questionnaireId), items)
  }

  /** The rows of a sequence of items, in order. */
  function Values(items: seq<Item>): (rows: seq<A.AnswerRow>)
    ensures |rows| == |items|
    ensures forall i :: 0 <= i < |items| ==> rows[i] == items[i].value
  {
    seq(|items|, i requires 0 <= i < |items| => items[i].value)
  }

  /** Questionnaire keys and answer keys never collide. */
  lemma KeysDisjoint(id: string, uuid: string)
    ensures Q.Key(id) != A.Key(uuid)
  {
    assert Q.Key(id)[0] == 'q' && A.Key(uuid)[0] == 'a';
  }

  lemma QuestionnaireKeyInjective(id1: string, id2: string)
    ensures Q.Key(id1) == Q.Key(id2) ==> id1 == id2
  {
    if Q.Key(id1) == Q.Key(id2) {
      assert id1 == Q.Key(id1)[14..];
      assert id2 == Q.Key(id2)[14..];
    }
  }

  /** In a consistent store the row found under `questionnaire:<id>` has that id,
      so saving it back writes the same key. */
  lemma LookupHasId(t: Table, id: string)
    ensures Consistent(t) && LookupQuestionnaire(t, id).Some? ==> LookupQuestionnaire(t, id).value.id == id
  {
    if Consistent(t) && LookupQuestionnaire(t, id).Some? {
      QuestionnaireKeyInjective(id, LookupQuestionnaire(t, id).value.id);
    }
  }
}

=== FILE: enums.dfy ===
/** The three string enums of `models/questionnaire.ts` and the
    membership test `Object.values(E).includes(v)` that request validation
    applies to them. */
module Enums {
  import opened Wrappers

  datatype QuestionnaireState = Loaded | Processing | Answering | Error | Completed

  datatype QuestionnaireType =
    | GenericInboundSalesRequest | Rfp | SecurityQuestionnaire | GdprQuestionnaire | OtherType

  datatype CustomerType = Gmp | Csp | Rtdp | BrandSafety | Ai | OtherCustomer

  /** The string each state is stored as. */
  function StateValue(s: QuestionnaireState): string
  {
    match s
    case Loaded => "loaded"
    case Processing => "processing"
    case Answering => "answering"
    case Error => "error"
    case Completed => "completed"
  }

  function TypeValue(t: QuestionnaireType): string
  {
    match t
    case GenericInboundSalesRequest => "generic_inbound_sales_request"
    case Rfp => "rfp"
    case SecurityQuestionnaire => "security_questionnaire"
    case GdprQuestionnaire => "gdpr_questionnaire"
    case OtherType => "other"
  }

  function CustomerValue(c: CustomerType): string
  {
    match c
    case Gmp => "gmp"
    case Csp => "csp"
    case Rtdp => "rtdp"
    case BrandSafety => "brand_safety"
    case Ai => "ai"
    case OtherCustomer => "other"
  }

  /** `Object.values(QuestionnaireType)`, in declaration order. */
  const TypeValues: seq<string> :=
    ["generic_inbound_sales_request", "rfp", "security_questionnaire", "gdpr_questionnaire", "other"]

  /** `Object.values(CustomerType)`, in declaration order. */
  const CustomerValues: seq<string> := ["gmp", "csp", "rtdp", "brand_safety", "ai", "other"]

  /** The questionnaire type whose value is `v`, if any. */
  function ParseType(v: string): (r: Option<QuestionnaireType>)
    ensures r.Some? <==> v in TypeValues
    ensures r.Some? ==> TypeValue(r.value) == v
  {
    if v == "generic_inbound_sales_request" then Some(GenericInboundSalesRequest)
    else if v == "rfp" then Some(Rfp)
    else if v == "security_questionnaire" then Some(SecurityQuestionnaire)
    else if v == "gdpr_questionnaire" then Some(GdprQuestionnaire)
    else if v == "other" then Some(OtherType)
    else None
  }

  /** The customer type whose value is `v`, if any. */
  function ParseCustomer(v: string): (r: Option<CustomerType>)
    ensures r.Some? <==> v in CustomerValues
    ensures r.Some? ==> CustomerValue(r.value) == v
  {
    if v == "gmp" then Some(Gmp)
    else if v == "csp" then Some(Csp)
    else if v == "rtdp" then Some(Rtdp)
    else if v == "brand_safety" then Some(BrandSafety)
    else if v == "ai" then Some(Ai)
    else if v == "other" then Some(OtherCustomer)
    else None
  }

  /** Every type's stored value parses back to that type, so values are distinct. */
  lemma TypeRoundTrip(t: QuestionnaireType)
    ensures TypeValue(t) in TypeValues
    ensures ParseType(TypeValue(t)) == Some(t)
  {
  }

  lemma CustomerRoundTrip(c: CustomerType)
    ensures CustomerValue(c) in CustomerValues
    ensures ParseCustomer(CustomerValue(c)) == Some(c)
  {
  }
}

=== FILE: gemini.dfy ===
/** The pure parts of `gemini.ts`: the code-fence stripping applied to every
    model reply before JSON parsing, the null-on-failure contract of question
    extraction, and the user prompt of a batch request. The model call and
    `JSON.parse` are parameters. */
module Gemini {
  import opened Wrappers
  import Seqs

  /** A parsed reply: the `"question": "answer"` members of the JSON object
      text, in the order they are written. A key may be repeated. */
  type Entries = seq<(string, string)>

  /** `obj[key]` on the object parsed from `entries`: the value of the last
      member with that key (a repeated key keeps its last value, see
      `LookupIsLast`). */
  function Lookup(entries: Entries, key: string): (r: Option<string>)
    ensures r.Some? <==> exists i :: 0 <= i < |entries| && entries[i].0 == key
    ensures r.Some? ==> exists i :: 0 <= i < |entries| && entries[i] == (key, r.value)
  {
    if |entries| == 0 then None
    else if entries[|entries| - 1].0 == key then Some(entries[|entries| - 1].1)
    else
      var r := Lookup(entries[..|entries| - 1], key);
      assert forall i :: 0 <= i < |entries| - 1 ==> entries[..|entries| - 1][i] == entries[i];
      r
  }

  /** `obj[key]` is the value of the last member with that key: no member
      after it repeats the key. */
  lemma {:induction false} LookupIsLast(entries: Entries, key: string)
    ensures Lookup(entries, key).Some? ==>
              exists i :: 0 <= i < |entries| && entries[i] == (key, Lookup(entries, key).value)
                          && forall j :: i < j < |entries| ==> entries[j].0 != key
  {
    if |entries| > 0 && entries[|entries| - 1].0 != key {
      var init := entries[..|entries| - 1];
      LookupIsLast(init, key);
      if Lookup(init, key).Some? {
        var i :| 0 <= i < |init| && init[i] == (key, Lookup(init, key).value)
                 && forall j :: i < j < |init| ==> init[j].0 != key;
        assert entries[i] == init[i];
        assert forall j :: i < j < |entries| ==> entries[j].0 != key by {
          forall j | i < j < |entries| ensures entries[j].0 != key {
            if j < |init| { assert entries[j] == init[j]; }
          }
        }
      }
    }
  }

  /** Index of the first member with key `key`, or `|entries|` if there is none. */
  function FirstIndex(entries: Entries, key: string): (p: nat)
    ensures p <= |entries|
    ensures p < |entries| <==> Lookup(entries, key).Some?
  {
    if |entries| == 0 then 0
    else
      var init := entries[..|entries| - 1];
      assert init + [entries[|entries| - 1]] == entries;
      LookupSnoc(init, entries[|entries| - 1]);
      var p := FirstIndex(init, key);
      if p < |init| then p
      else if entries[|entries| - 1].0 == key then |init|
      else |entries|
  }

  /** `FirstIndex` finds the first member with the key. */
  lemma {:induction false} FirstIndexIsFirst(entries: Entries, key: string)
    ensures FirstIndex(entries, key) < |entries| ==>
              && entries[FirstIndex(entries, key)].0 == key
              && forall j :: 0 <= j < FirstIndex(entries, key) ==> entries[j].0 != key
  {
    if |entries| > 0 {
      var init := entries[..|entries| - 1];
      FirstIndexIsFirst(init, key);
      assert forall j :: 0 <= j < |init| ==> init[j] == entries[j];
    }
  }

  /** No key occurs twice. */
  predicate DistinctKeys(entries: Entries)
  {
    forall i, j :: 0 <= i < j < |entries| ==> entries[i].0 != entries[j].0
  }

  /** `obj[key] = value` on an object with own properties `obj`: an existing
      key keeps its place and takes the new value, a new key goes last. */
  function Assign(obj: Entries, key: string, value: string): (r: Entries)
    ensures forall k :: Lookup(r, k) == if k == key then Some(value) else Lookup(obj, k)
    ensures DistinctKeys(obj) ==> DistinctKeys(r)
    ensures Lookup(obj, key).None? ==> r == obj + [(key, value)]
    ensures Lookup(obj, key).Some? ==> |r| == |obj| && forall i :: 0 <= i < |r| ==> r[i].0 == obj[i].0
  {
    if |obj| == 0 then [(key, value)]
    else
      var init, last := obj[..|obj| - 1], obj[|obj| - 1];
      assert init + [last] == obj;
      LookupSnoc(init, last);
      DistinctSnoc(init, last);
      if last.0 == key then
        LookupSnoc(init, (key, value));
        DistinctSnoc(init, (key, value));
        init + [(key, value)]
      else if Lookup(init, key).None? then
        LookupSnoc(obj, (key, value));
        DistinctSnoc(obj, (key, value));
        obj + [(key, value)]
      else
        var front := Assign(init, key, value);
        LookupSnoc(front, last);
        DistinctSnoc(front, last);
        front + [last]
  }

  /** A member can be appended without repeating a key iff its key is new. */
  lemma DistinctSnoc(entries: Entries, p: (string, string))
    ensures DistinctKeys(entries + [p]) <==> DistinctKeys(entries) && Lookup(entries, p.0).None?
  {
    var e := entries + [p];
    if DistinctKeys(e) {
      forall i | 0 <= i < |entries| ensures entries[i].0 != p.0 {
        assert e[i] == entries[i] && e[|entries|] == p;
      }
      forall i, j | 0 <= i < j < |entries| ensures entries[i].0 != entries[j].0 {
        assert e[i] == entries[i] && e[j] == entries[j];
      }
    }
  }

  /** Looking up in `entries + [p]`: the new member wins for its own key. */
  lemma LookupSnoc(entries: Entries, p: (string, string))
    ensures forall k :: Lookup(entries + [p], k) == if k == p.0 then Some(p.1) else Lookup(entries, k)
  {
    assert (entries + [p])[..|entries|] == entries;
  }

  /** `Object.entries(JSON.parse(text))` for a reply whose object text lists
      `entries`: each key once, with the value it last has (its place is
      given by `ObjectEntriesOrder`). */
  function ObjectEntries(entries: Entries): (r: Entries)
    ensures DistinctKeys(r)
    ensures forall k :: Lookup(r, k) == Lookup(entries, k)
    ensures |r| <= |entries|
  {
    if |entries| == 0 then []
    else
      var init, last := entries[..|entries| - 1], entries[|entries| - 1];
      assert init + [last] == entries;
      LookupSnoc(init, last);
      Assign(ObjectEntries(init), last.0, last.1)
  }

  /** `Object.entries` lists the keys in the order they first occur in the
      reply text. */
  lemma {:induction false} ObjectEntriesOrder(entries: Entries)
    ensures forall i :: 0 <= i < |ObjectEntries(entries)| ==>
              FirstIndex(entries, ObjectEntries(entries)[i].0) < |entries|
    ensures forall i, j :: 0 <= i < j < |ObjectEntries(entries)| ==>
              FirstIndex(entries, ObjectEntries(entries)[i].0) < FirstIndex(entries, ObjectEntries(entries)[j].0)
  {
    if |entries| > 0 {
      var init, last := entries[..|entries| - 1], entries[|entries| - 1];
      assert init + [last] == entries;
      var o := ObjectEntries(init);
      assert ObjectEntries(entries) == Assign(o, last.0, last.1);
      ObjectEntriesOrder(init);
      OrderStepBound(init, last, o);
      OrderStepPairs(init, last, o);
    }
  }

  /** First occurrences after appending a member: earlier keys keep theirs,
      a new key occurs first at the end. */
  lemma FirstIndexSnoc(init: Entries, last: (string, string), key: string)
    ensures FirstIndex(init + [last], key)
            == if FirstIndex(init, key) < |init| then FirstIndex(init, key)
               else if last.0 == key then |init| else |init| + 1
  {
    assert (init + [last])[..|init|] == init;
  }

  /** One step of `ObjectEntriesOrder`, first half: every key of the
      assigned object occurs in the extended reply. */
  lemma OrderStepBound(init: Entries, last: (string, string), o: Entries)
    requires Lookup(o, last.0) == Lookup(init, last.0)
    requires forall i :: 0 <= i < |o| ==> FirstIndex(init, o[i].0) < |init|
    ensures var r := Assign(o, last.0, last.1);
      forall i :: 0 <= i < |r| ==> FirstIndex(init + [last], r[i].0) < |init + [last]|
  {
    var r := Assign(o, last.0, last.1);
    forall i | 0 <= i < |r| ensures FirstIndex(init + [last], r[i].0) < |init + [last]| {
      if Lookup(o, last.0).None? && i == |o| {
        assert r[i].0 == last.0;
        FirstIndexSnoc(init, last, last.0);
      } else {
        assert r[i].0 == o[i].0;
        FirstIndexSnoc(init, last, o[i].0);
      }
    }
  }

  /** One step of `ObjectEntriesOrder`, second half: assigning the appended
      member to an object listed in first-occurrence order keeps that order. */
  lemma OrderStepPairs(init: Entries, last: (string, string), o: Entries)
    requires Lookup(o, last.0) == Lookup(init, last.0)
    requires forall i :: 0 <= i < |o| ==> FirstIndex(init, o[i].0) < |init|
    requires forall i, j :: 0 <= i < j < |o| ==> FirstIndex(init, o[i].0) < FirstIndex(init, o[j].0)
    ensures var r := Assign(o, last.0, last.1);
      forall i, j :: 0 <= i < j < |r| ==>
        FirstIndex(init + [last], r[i].0) < FirstIndex(init + [last], r[j].0)
  {
    var r := Assign(o, last.0, last.1);
    var e := init + [last];
    forall i | 0 <= i < |o| ensures FirstIndex(e, o[i].0) == FirstIndex(init, o[i].0) {
      FirstIndexSnoc(init, last, o[i].0);
    }
    if Lookup(o, last.0).None? {
      FirstIndexSnoc(init, last, last.0);
      forall i, j | 0 <= i < j < |r| ensures FirstIndex(e, r[i].0) < FirstIndex(e, r[j].0) {
        assert r[i] == o[i];
        if j < |o| { assert r[j] == o[j]; }
      }
    } else {
      forall i, j | 0 <= i < j < |r| ensures FirstIndex(e, r[i].0) < FirstIndex(e, r[j].0) {
        assert r[i].0 == o[i].0 && r[j].0 == o[j].0;
      }
    }
  }

  /** On an object, a key is defined iff it is listed by `Object.entries`,
      and then with exactly the value `obj[key]` gives. */
  lemma ObjectEntriesLookup(entries: Entries, key: string, value: string)
    ensures (exists i :: 0 <= i < |ObjectEntries(entries)| && ObjectEntries(entries)[i] == (key, value))
            <==> Lookup(entries, key) == Some(value)
  {
    var r := ObjectEntries(entries);
    if i :| 0 <= i < |r| && r[i] == (key, value) {
      var v := Lookup(r, key).value;
      var j :| 0 <= j < |r| && r[j] == (key, v);
      assert i == j;
    }
    if Lookup(entries, key) == Some(value) {
      var j :| 0 <= j < |r| && r[j] == (key, value);
      assert ObjectEntries(entries)[j] == (key, value);
    }
  }

  /** Whether `s` starts with three backticks. */
  predicate OpensFence(s: string)
  {
    |s| >= 3 && s[0] == '`' && s[1] == '`' && s[2] == '`'
  }

  /** `s.replace(/```(json)?/g, "")`: every run of three backticks is
      removed, together with a `json` that directly follows it. */
  function StripFences(s: string): (r: string)
    ensures |r| <= |s|
    ensures '`' !in s ==> r == s
    decreases |s|
  {
    if OpensFence(s) && |s| >= 7 && s[3] == 'j' && s[4] == 's' && s[5] == 'o' && s[6] == 'n' then
      StripFences(s[7..])
    else if OpensFence(s) then StripFences(s[3..])
    else if |s| == 0 then ""
    else [s[0]] + StripFences(s[1..])
  }

  /** A prefix without backticks passes through untouched and cannot take
      part in a fence. */
  lemma {:induction false} StripFencesPlainPrefix(a: string, b: string)
    requires '`' !in a
    ensures StripFences(a + b) == a + StripFences(b)
    decreases |a|
  {
    if |a| > 0 {
      assert (a + b)[0] == a[0];
      assert a[0] in a;
      assert !OpensFence(a + b);
      assert (a + b)[1..] == a[1..] + b;
      StripFencesPlainPrefix(a[1..], b);
      assert [a[0]] + a[1..] == a;
    } else {
      assert a + b == b;
    }
  }

  /** A fenced JSON block loses exactly its fences. */
  lemma StripFencedBlock(body: string)
    requires '`' !in body
    ensures StripFences("```json\n" + body + "\n```") == "\n" + body + "\n"
  {
    var s := "```json\n" + body + "\n```";
    assert OpensFence(s) && s[3] == 'j' && s[4] == 's' && s[5] == 'o' && s[6] == 'n';
    assert s[7..] == ("\n" + body + "\n") + "```";
    StripFencesPlainPrefix("\n" + body + "\n", "```");
    assert StripFences("```") == StripFences("");
  }

  /** `extractQuestions`: `reply` is the model's text, or `None` when the
      call failed; `parse` is `JSON.parse`, `None` when it throws. Any
      failure yields `null` instead of an exception. */
  function ExtractQuestions(reply: Option<string>, parse: string -> Option<seq<string>>)
    : (r: Option<seq<string>>)
    ensures reply.None? ==> r.None?
    ensures reply.Some? ==> r == parse(StripFences(reply.value))
    ensures reply.Some? && '`' !in reply.value ==> r == parse(reply.value)
  {
    match reply
    case None => None
    case Some(text) => parse(StripFences(text))
  }

  /** A reply wrapped in a ```json fence is parsed as its bare body (between
      newlines); a failed call is `null`, whatever the parser. */
  lemma ExtractQuestionsFenced(body: string, parse: string -> Option<seq<string>>)
    requires '`' !in body
    ensures ExtractQuestions(Some("```json\n" + body + "\n```"), parse) == parse("\n" + body + "\n")
    ensures ExtractQuestions(Some(body), parse) == parse(body)
    ensures ExtractQuestions(None, parse) == None
  {
    StripFencedBlock(body);
  }

  /** The user prompt of a batch request: the questions joined with newlines. */
  function BatchPrompt(questions: seq<string>): string
  {
    Seqs.Join(questions, '\n')
  }

  /** The batch prompt holds the questions one per line, in order: splitting
      it at newlines gives them back. */
  lemma BatchPromptLines(questions: seq<string>)
    requires |questions| > 0
    requires forall i :: 0 <= i < |questions| ==> '\n' !in questions[i]
    ensures Seqs.Split(BatchPrompt(questions), '\n') == questions
  {
    Seqs.SplitJoin(questions, '\n');
  }

  /** `answerQuestionBatch`: asks `model` with the batch prompt and parses
      the fence-stripped reply into a question-to-answer object. A failed
      call or an unparsable reply is a failure (`None`), which the callers
      see as an exception. */
  function AnswerQuestionBatch(questions: seq<string>, model: string -> Option<string>,
                               parse: string -> Option<Entries>): (r: Option<Entries>)
    ensures model(BatchPrompt(questions)).None? ==> r.None?
    ensures model(BatchPrompt(questions)).Some? ==>
              r == parse(StripFences(model(BatchPrompt(questions)).value))
    ensures var reply := model(BatchPrompt(questions));
              reply.Some? && '`' !in reply.value ==> r == parse(reply.value)
  {
    match model(BatchPrompt(questions))
    case None => None
    case Some(text) => parse(StripFences(text))
  }

  /** What a caller hands to `answerQuestionBatch`: the list of questions
      its signature asks for, or a `{ questions, type, customerType }`
      request object. */
  datatype BatchArgument =
    | QuestionList(questions: seq<string>)
    | RequestObject(questions: seq<string>, qtype: string, customerType: string)

  /** `answerQuestionBatch(arg)` as JavaScript runs it: the prompt is
      `arg.join("\n")`, and an object has no `join`, so a request object
      throws a TypeError before the model is asked. */
  function AnswerQuestionBatchCalled(arg: BatchArgument, model: string -> Option<string>,
                                     parse: string -> Option<Entries>): (r: Option<Entries>)
    ensures arg.RequestObject? ==> r.None?
    ensures arg.QuestionList? ==> r == AnswerQuestionBatch(arg.questions, model, parse)
  {
    match arg
    case QuestionList(questions) => AnswerQuestionBatch(questions, model, parse)
    case RequestObject(_, _, _) => None
  }

  /** A batch reply wrapped in a ```json fence is parsed as its bare body. */
  lemma AnswerQuestionBatchFenced(questions: seq<string>, model: string -> Option<string>,
                                  parse: string -> Option<Entries>, body: string)
    requires '`' !in body
    requires model(BatchPrompt(questions)) == Some("```json\n" + body + "\n```")
    ensures AnswerQuestionBatch(questions, model, parse) == parse("\n" + body + "\n")
  {
    StripFencedBlock(body);
  }
}

=== FILE: questionnaire_rows.dfy ===
/** The stored questionnaire row, the in-memory `Questionnaire` object built
    from it, and the key and label under which it is saved
    (`models/questionnaire.ts`). */
module QuestionnaireRows {
  import opened Wrappers
  import opened Enums

  /** `QuestionnaireRow`: what is persisted. `name` is optional because the
      HTTP handler creates questionnaires without one. */
  datatype QuestionnaireRow = QuestionnaireRow(
    id: string,
    name: Option<string>,
    text: string,
    json: Option<seq<string>>,
    error: Option<string>,
    qtype: QuestionnaireType,
    customerType: CustomerType,
    state: QuestionnaireState,
    dateCreated: int,
    dateCompleted: Option<int>,
    approvedAt: Option<int>)

  /** The `Questionnaire` object: the row's fields plus the derived
      `totalAnswersApproved`, which is never persisted. */
  datatype Questionnaire = Questionnaire(
    id: string,
    name: Option<string>,
    text: string,
    dateCreated: int,
    state: QuestionnaireState,
    json: Option<seq<string>>,
    error: Option<string>,
    dateCompleted: Option<int>,
    qtype: QuestionnaireType,
    customerType: CustomerType,
    approvedAt: Option<int>,
    totalAnswersApproved: nat)

  /** The constructor / `fromRow`: copies every field, except that a zero
      `dateCreated` is replaced by the current time `now`. */
  function FromRow(row: QuestionnaireRow, now: int): (q: Questionnaire)
    ensures q.totalAnswersApproved == 0
    ensures q.dateCreated == (if row.dateCreated == 0 then now else row.dateCreated)
  {
    Questionnaire(row.id, row.name, row.text,
                  if row.dateCreated == 0 then now else row.dateCreated,
                  row.state, row.json, row.error, row.dateCompleted,
                  row.qtype, row.customerType, row.approvedAt, 0)
  }

  /** `toJson`: the persisted fields of the object. Everything but the
      derived approved count survives the trip back through `fromRow`. */
  function ToJson(q: Questionnaire): (row: QuestionnaireRow)
    ensures q.dateCreated != 0 ==> forall now :: FromRow(row, now) == q.(totalAnswersApproved := 0)
  {
    QuestionnaireRow(q.id, q.name, q.text, q.json, q.error, q.qtype, q.customerType,
                     q.state, q.dateCreated, q.dateCompleted, q.approvedAt)
  }

  /** A row with a creation date survives the trip through the object unchanged. */
  lemma RowRoundTrip(row: QuestionnaireRow, now: int)
    requires row.dateCreated != 0
    ensures ToJson(FromRow(row, now)) == row
  {
  }

  /** A row without a creation date comes back stamped with `now`, nothing else changed. */
  lemma RowRoundTripStampsDate(row: QuestionnaireRow, now: int)
    requires row.dateCreated == 0
    ensures ToJson(FromRow(row, now)) == row.(dateCreated := now)
  {
  }

  /** An object with no approved-answer count and a creation date is exactly
      what its own row rebuilds. */
  lemma ObjectRoundTrip(q: Questionnaire, now: int)
    requires q.totalAnswersApproved == 0 && q.dateCreated != 0
    ensures FromRow(ToJson(q), now) == q
  {
  }

  /** The store key `questionnaire:<id>`. */
  function Key(id: string): string
  {
    "questionnaire:" + id
  }

  /** The `label1` value written by `save`: `questionnaire-<name>`, where an
      undefined name prints as `undefined` in the template string. */
  function NameLabel(name: Option<string>): string
  {
    "questionnaire-" + name.GetOr("undefined")
  }

  /** The labels `save` attaches to a questionnaire with this name. */
  function Labels(name: Option<string>): map<string, string>
  {
    map["label1" := NameLabel(name)]
  }
}

=== FILE: questionnaires.dfy ===
/** `Questionnaire` operations of `models/questionnaire.ts`: creation, the
    read with its approved-answer count, approval, deletion, and the state
    machine driven by the creation and batch-answer handlers.
    LOADED -> PROCESSING -> ANSWERING -> COMPLETED, with ERROR as the other exit. */
module Questionnaires {
  import opened Wrappers
  import opened Store
  import opened Enums
  import Seqs
  import opened QuestionnaireRows
  import A = AnswerRows
  import opened Db
  import Gemini
  import Answers

  /** Questions per batch event. */
  const BatchSize: nat := 10
  /** Milliseconds between consecutive batch events. */
  const BatchStagger: nat := 50

  const ExtractionError: string := "Error extracting questions"
  const BatchError: string := "Error answering batch"

  // ---------------------------------------------------------------- create

  /** `Questionnaire.create`: a new LOADED questionnaire under the fresh id
      `uuid`, with no questions, error, completion or approval, and type and
      customer type defaulting to `other`; it is saved and nothing is published. */
  function Create(w: World, text: string, name: Option<string>, qtype: Option<QuestionnaireType>,
                  customerType: Option<CustomerType>, uuid: string, now: int)
    : (res: (World, Questionnaire))
    ensures var q := res.1;
      && q.id == uuid && q.text == text && q.name == name
      && q.state == Loaded
      && q.json.None? && q.error.None? && q.dateCompleted.None? && q.approvedAt.None?
      && q.qtype == qtype.GetOr(OtherType)
      && q.customerType == customerType.GetOr(OtherCustomer)
      && q.dateCreated == now
      && q.totalAnswersApproved == 0
    ensures res.0.published == w.published
    ensures LookupQuestionnaire(res.0.table, uuid) == Some(ToJson(res.1))
    ensures forall k :: k in w.table && k != Key(uuid) ==> k in res.0.table && res.0.table[k] == w.table[k]
    ensures Consistent(w.table) ==> Consistent(res.0.table)
  {
    var row := QuestionnaireRow(uuid, name, text, None, None, qtype.GetOr(OtherType),
                                customerType.GetOr(OtherCustomer), Loaded, now, None, None);
    var q := FromRow(row, now);
    (World(SaveQuestionnaire(w.table, q), w.published), q)
  }

  // ------------------------------------------------------------------- get

  /** Number of rows whose `approved` is true. */
  function CountApproved(rows: seq<A.AnswerRow>): nat
  {
    if |rows| == 0 then 0
    else (if rows[0].approved == Some(true) then 1 else 0) + CountApproved(rows[1..])
  }

  /** `Questionnaire.get`: the stored row as an object, with the number of
      approved answers among those listed for it. */
  function Get(t: Table, id: string, listing: Page<Item>, now: int): (r: Option<Questionnaire>)
    ensures r.Some? <==> LookupQuestionnaire(t, id).Some?
    ensures r.Some? ==> ToJson(r.value) == ToJson(FromRow(LookupQuestionnaire(t, id).value, now))
    ensures r.Some? ==> r.value.totalAnswersApproved == CountApproved(Values(AllItems(listing)))
  {
    match LookupQuestionnaire(t, id)
    case Some(row) =>
      Some(FromRow(row, now).(totalAnswersApproved := CountApproved(Values(AllItems(listing)))))
    case None => None
  }

  /** Keys of the listed items whose answer is approved. */
  function ApprovedItemKeys(items: seq<Item>): set<string>
  {
    if |items| == 0 then {}
    else (if items[0].value.approved == Some(true) then {items[0].key} else {}) + ApprovedItemKeys(items[1..])
  }

  lemma {:induction false} ApprovedItemKeysMembers(items: seq<Item>, k: string)
    ensures k in ApprovedItemKeys(items) <==>
              exists i :: 0 <= i < |items| && items[i].key == k && items[i].value.approved == Some(true)
    decreases |items|
  {
    if |items| > 0 {
      ApprovedItemKeysMembers(items[1..], k);
      if exists i :: 0 <= i < |items| && items[i].key == k && items[i].value.approved == Some(true) {
        var i :| 0 <= i < |items| && items[i].key == k && items[i].value.approved == Some(true);
        if i > 0 {
          assert items[1..][i - 1] == items[i];
        }
      }
      if exists i :: 0 <= i < |items[1..]| && items[1..][i].key == k && items[1..][i].value.approved == Some(true) {
        var i :| 0 <= i < |items[1..]| && items[1..][i].key == k && items[1..][i].value.approved == Some(true);
        assert items[i + 1] == items[1..][i];
      }
    }
  }

  /** Over items with distinct keys, the count of approved rows is the number
      of distinct approved keys. */
  lemma {:induction false} CountApprovedIsCardinality(items: seq<Item>)
    requires DistinctKeys(items)
    ensures CountApproved(Values(items)) == |ApprovedItemKeys(items)|
    decreases |items|
  {
    if |items| > 0 {
      assert Values(items)[1..] == Values(items[1..]);
      CountApprovedIsCardinality(items[1..]);
      ApprovedItemKeysMembers(items[1..], items[0].key);
    }
  }

  /** The keys of the questionnaire's approved answers in the store. */
  function ApprovedKeys(t: Table, id: string): set<string>
  {
    set k | k in t && Labelled(t[k], "label1", A.AnswersPattern(id))
                   && t[k].value.ARow? && t[k].value.a.approved == Some(true)
  }

  /** With a listing of the questionnaire's answers, `get` counts exactly the
      approved answers the store holds for it. */
  lemma GetCountsApprovedAnswers(t: Table, id: string, listing: Page<Item>, now: int)
    requires LookupQuestionnaire(t, id).Some?
    requires ListsAnswers(t, id, AllItems(listing))
    ensures Get(t, id, listing, now).value.totalAnswersApproved == |ApprovedKeys(t, id)|
  {
    var items := AllItems(listing);
    CountApprovedIsCardinality(items);
    forall k ensures k in ApprovedItemKeys(items) <==> k in ApprovedKeys(t, id) {
      ApprovedItemKeysMembers(items, k);
      if k in ApprovedKeys(t, id) {
        var i :| 0 <= i < |items| && items[i].key == k;
      }
    }
    assert ApprovedItemKeys(items) == ApprovedKeys(t, id);
  }

  // --------------------------------------------------------------- approve

  /** `Questionnaire.approve`: stamps `approvedAt` on a stored questionnaire
      and saves it; nothing else changes, not even its state. An unknown id
      gives `null`. The clock is read twice: `now` when `get` builds the
      object, `approvedAt` for the stamp. */
  function Approve(w: World, id: string, listing: Page<Item>, now: int, approvedAt: int)
    : (r: Option<(World, Questionnaire)>)
    ensures r.None? <==> LookupQuestionnaire(w.table, id).None?
    ensures r.Some? ==>
      var before := LookupQuestionnaire(w.table, id).value;
      && r.value.1.approvedAt == Some(approvedAt)
      && r.value.1.state == before.state
      && ToJson(r.value.1) == ToJson(FromRow(before, now)).(approvedAt := Some(approvedAt))
      && r.value.0.published == w.published
      && (Consistent(w.table) ==>
            && Consistent(r.value.0.table)
            && r.value.0.table.Keys == w.table.Keys
            && LookupQuestionnaire(r.value.0.table, id) == Some(ToJson(r.value.1))
            && (forall k :: k in w.table && k != Key(id) ==> r.value.0.table[k] == w.table[k]))
  {
    match Get(w.table, id, listing, now)
    case Some(q) =>
      LookupHasId(w.table, id);
      var q' := q.(approvedAt := Some(approvedAt));
      Some((World(SaveQuestionnaire(w.table, q'), w.published), q'))
    case None => None
  }

  // ---------------------------------------------------------------- delete

  /** Whether a questionnaire in state `s` may be deleted. */
  predicate Deletable(s: QuestionnaireState)
  {
    s == Completed || s == Error
  }

  function DeleteError(s: QuestionnaireState): string
  {
    "Cannot Delete Questionnaire while in " + StateValue(s) + " state!"
  }

  /** Deletes each row's answer in turn, as `answer.delete()` is written:
      under the key of its question hash. */
  function DeleteAnswers(t: Table, rows: seq<A.AnswerRow>): (t': Table)
    ensures t'.Keys == t.Keys - (set i | 0 <= i < |rows| :: A.Key(rows[i].id))
    ensures forall k :: k in t' ==> t'[k] == t[k]
    decreases |rows|
  {
    if |rows| == 0 then t
    else
      var t' := DeleteAnswers(Answers.DeleteAsWritten(t, rows[0]), rows[1..]);
      assert (set i | 0 <= i < |rows| :: A.Key(rows[i].id))
             == {A.Key(rows[0].id)} + (set i | 0 <= i < |rows[1..]| :: A.Key(rows[1..][i].id));
      t'
  }

  /** Deletes each row's answer in turn under the key `save` wrote. */
  function DeleteSavedAnswers(t: Table, rows: seq<A.AnswerRow>): (t': Table)
    ensures t'.Keys == t.Keys - (set i | 0 <= i < |rows| :: A.Key(rows[i].uuid))
    ensures forall k :: k in t' ==> t'[k] == t[k]
    decreases |rows|
  {
    if |rows| == 0 then t
    else
      var t' := DeleteSavedAnswers(Answers.Delete(t, rows[0]), rows[1..]);
      assert (set i | 0 <= i < |rows| :: A.Key(rows[i].uuid))
             == {A.Key(rows[0].uuid)} + (set i | 0 <= i < |rows[1..]| :: A.Key(rows[1..][i].uuid));
      t'
  }

  /** `questionnaire.delete({ removeAnswers })` as written: only a COMPLETED
      or ERROR questionnaire may be deleted, otherwise it throws and nothing
      is removed. The row goes; with `removeAnswers`, each listed answer is
      deleted by `answer.delete()`, which removes `answer:<hash>`. */
  function Delete(t: Table, q: Questionnaire, removeAnswers: bool, listing: Page<Item>)
    : (r: Result<Table, string>)
    ensures r.Success? <==> Deletable(q.state)
    ensures r.Failure? ==> r.error == DeleteError(q.state)
    ensures r.Success? ==>
              var rows := Values(AllItems(listing));
              r.value.Keys == t.Keys - {Key(q.id)}
                              - (if removeAnswers then set i | 0 <= i < |rows| :: A.Key(rows[i].id) else {})
    ensures r.Success? ==> forall k :: k in r.value ==> r.value[k] == t[k]
  {
    if Deletable(q.state) then
      var t1 := t - {Key(q.id)};
      if removeAnswers then Success(DeleteAnswers(t1, Values(AllItems(listing)))) else Success(t1)
    else
      Failure(DeleteError(q.state))
  }

  /** As written, a cascading delete removes the questionnaire but leaves
      every one of its saved answers in place: their `answer:<uuid>` keys
      (36-character uuids) are never among the `answer:<hash>` keys
      (12-character hashes) it removes. */
  lemma DeleteKeepsAnswers(t: Table, q: Questionnaire, listing: Page<Item>)
    requires Consistent(t)
    requires Deletable(q.state)
    requires ListsAnswers(t, q.id, AllItems(listing))
    requires forall i :: 0 <= i < |AllItems(listing)| ==>
               |AllItems(listing)[i].value.uuid| == 36 && |AllItems(listing)[i].value.id| == 12
    ensures var r := Delete(t, q, true, listing);
      && r.Success?
      && Key(q.id) !in r.value
      && (forall k :: k in t && Labelled(t[k], "label1", A.AnswersPattern(q.id))
            ==> k in r.value && r.value[k] == t[k])
  {
    var items := AllItems(listing);
    var rows := Values(items);
    var t1 := t - {Key(q.id)};
    forall k | k in t && Labelled(t[k], "label1", A.AnswersPattern(q.id))
      ensures k in DeleteAnswers(t1, rows) && DeleteAnswers(t1, rows)[k] == t[k]
    {
      var i :| 0 <= i < |items| && items[i].key == k;
      assert t[k].value == ARow(items[i].value);
      KeysDisjoint(q.id, rows[i].uuid);
      HashKeysMissUuidKey(t1, rows, rows[i].uuid);
    }
  }

  /** An `answer:<uuid>` record outlives the removal of `answer:<hash>` keys
      when the uuid and the hashes differ in length. */
  lemma HashKeysMissUuidKey(t: Table, rows: seq<A.AnswerRow>, uuid: string)
    requires A.Key(uuid) in t
    requires forall j :: 0 <= j < |rows| ==> |rows[j].id| != |uuid|
    ensures A.Key(uuid) in DeleteAnswers(t, rows)
    ensures DeleteAnswers(t, rows)[A.Key(uuid)] == t[A.Key(uuid)]
  {
    forall j | 0 <= j < |rows| ensures A.Key(rows[j].id) != A.Key(uuid) {
      assert |A.Key(rows[j].id)| != |A.Key(uuid)|;
    }
  }

  /** The delete as evidently intended: the same, except that each listed
      answer is removed under the key `save` wrote. */
  function DeleteIntended(t: Table, q: Questionnaire, removeAnswers: bool, listing: Page<Item>)
    : (r: Result<Table, string>)
    ensures r.Success? <==> Deletable(q.state)
    ensures r.Failure? ==> r.error == DeleteError(q.state)
    ensures r.Success? ==> Key(q.id) !in r.value && forall k :: k in r.value ==> k in t && r.value[k] == t[k]
    ensures r.Success? ==>
              var rows := Values(AllItems(listing));
              r.value.Keys == t.Keys - {Key(q.id)}
                              - (if removeAnswers then set i | 0 <= i < |rows| :: A.Key(rows[i].uuid) else {})
    ensures r.Success? && !removeAnswers ==> r.value == t - {Key(q.id)}
  {
    if Deletable(q.state) then
      var t1 := t - {Key(q.id)};
      if removeAnswers then Success(DeleteSavedAnswers(t1, Values(AllItems(listing)))) else Success(t1)
    else
      Failure(DeleteError(q.state))
  }

  /** With a listing of the questionnaire's answers, the intended cascading
      delete removes the questionnaire and every answer labelled for it, and
      keeps every other record. */
  lemma DeleteCascades(t: Table, q: Questionnaire, listing: Page<Item>)
    requires Consistent(t)
    requires Deletable(q.state)
    requires ListsAnswers(t, q.id, AllItems(listing))
    ensures var r := DeleteIntended(t, q, true, listing);
      && r.Success?
      && Key(q.id) !in r.value
      && (forall k :: k in r.value ==> !Labelled(r.value[k], "label1", A.AnswersPattern(q.id)))
      && (forall k :: k in t && k != Key(q.id) && !Labelled(t[k], "label1", A.AnswersPattern(q.id))
            ==> k in r.value && r.value[k] == t[k])
  {
    var items := AllItems(listing);
    var rows := Values(items);
    forall i | 0 <= i < |items| ensures items[i].key == A.Key(rows[i].uuid) {
      assert t[items[i].key].value == ARow(items[i].value);
    }
  }

  /** A questionnaire still being worked on cannot be deleted, and the store
      is not touched. */
  lemma DeleteRefusedWhileActive(t: Table, q: Questionnaire, removeAnswers: bool, listing: Page<Item>)
    requires q.state in {Loaded, Processing, Answering}
    ensures Delete(t, q, removeAnswers, listing) == Failure(DeleteError(q.state))
    ensures DeleteIntended(t, q, removeAnswers, listing) == Failure(DeleteError(q.state))
  {
  }

  // --------------------------------------------------------------- fan-out

  /** The batch events for `batches`: event `i` carries batch `i`, its
      number, the total, and a delay of `i * 50` ms. */
  function BatchEvents(id: string, batches: seq<seq<string>>): (evs: seq<Event>)
    ensures |evs| == |batches|
    ensures forall i :: 0 <= i < |evs| ==>
              evs[i] == Event(BatchTopic, i * BatchStagger, BatchBody(id, |batches|, i, batches[i]))
  {
    seq(|batches|, i requires 0 <= i < |batches| =>
          Event(BatchTopic, i * BatchStagger, BatchBody(id, |batches|, i, batches[i])))
  }

  /** The question batches carried by a list of events, in order. */
  function BatchesOf(evs: seq<Event>): seq<seq<string>>
  {
    seq(|evs|, i requires 0 <= i < |evs| => if evs[i].body.BatchBody? then evs[i].body.batch else [])
  }

  /** `batchProcessAnswers`: only when questions are stored and the state is
      PROCESSING, moves to ANSWERING, saves, and publishes one event per
      batch of at most 10 questions; otherwise does nothing. */
  function BatchProcessAnswers(w: World, q: Questionnaire): (res: (World, Questionnaire))
    ensures !(q.json.Some? && q.state == Processing) ==> res == (w, q)
    ensures q.json.Some? && q.state == Processing ==>
      var (w', q') := res;
      && q' == q.(state := Answering)
      && w'.table == SaveQuestionnaire(w.table, q')
      && |w'.published| >= |w.published| && w'.published[..|w.published|] == w.published
      && var evs := w'.published[|w.published|..];
      && |evs| == Seqs.ChunkCount(|q.json.value|, BatchSize)
      && Seqs.Flatten(BatchesOf(evs)) == q.json.value
      && (forall i :: 0 <= i < |evs| ==>
            && evs[i].topic == BatchTopic
            && evs[i].after == i * BatchStagger
            && evs[i].body.BatchBody?
            && evs[i].body.id == q.id
            && evs[i].body.batchNumber == i
            && evs[i].body.totalBatches == |evs|
            && 0 < |evs[i].body.batch| <= BatchSize
            && (i < |evs| - 1 ==> |evs[i].body.batch| == BatchSize))
  {
    if q.json.Some? && q.state == Processing then
      var q' := q.(state := Answering);
      var batches := Seqs.SplitEvery(BatchSize, q.json.value);
      var evs := BatchEvents(q.id, batches);
      assert BatchesOf(evs) == batches;
      assert (w.published + evs)[|w.published|..] == evs;
      (World(SaveQuestionnaire(w.table, q'), w.published + evs), q')
    else
      (w, q)
  }

  /** Batch events are published with strictly increasing delays. */
  lemma BatchDelaysIncrease(w: World, q: Questionnaire, i: nat, j: nat)
    requires q.json.Some? && q.state == Processing
    requires var evs := BatchProcessAnswers(w, q).0.published[|w.published|..];
             i < j < |evs|
    ensures var evs := BatchProcessAnswers(w, q).0.published[|w.published|..];
            evs[i].after < evs[j].after
  {
  }

  // ----------------------------------------------------- creation handler

  /** `Questionnaire.onCreated` for the stored `row`: `extracted` is what
      question extraction returned. A non-empty list is stored as the
      questions with state PROCESSING, saved, and fanned out (which moves the
      state on to ANSWERING); nothing or an empty list records ERROR with
      "Error extracting questions" and publishes nothing. */
  function OnCreated(w: World, row: QuestionnaireRow, extracted: Option<seq<string>>, now: int)
    : (w': World)
    ensures extracted.None? || |extracted.value| == 0 ==>
      && w'.published == w.published
      && w'.table == SaveQuestionnaire(w.table,
                       FromRow(row, now).(state := Error, error := Some(ExtractionError)))
    ensures extracted.Some? && |extracted.value| > 0 ==>
      var processing := FromRow(row, now).(json := extracted, state := Processing);
      && w' == BatchProcessAnswers(World(SaveQuestionnaire(w.table, processing), w.published), processing).0
      && |w'.published| == |w.published| + Seqs.ChunkCount(|extracted.value|, BatchSize)
      && LookupQuestionnaire(w'.table, row.id).Some?
      && LookupQuestionnaire(w'.table, row.id).value == ToJson(processing.(state := Answering))
  {
    var q := FromRow(row, now);
    if extracted.Some? && |extracted.value| > 0 then
      var processing := q.(json := extracted, state := Processing);
      BatchProcessAnswers(World(SaveQuestionnaire(w.table, processing), w.published), processing).0
    else
      World(SaveQuestionnaire(w.table, q.(state := Error, error := Some(ExtractionError))), w.published)
  }

  // ------------------------------------------------- batch-answer handler

  /** The first `n` uuids the generator `uuid` hands out. */
  function FreshIds(uuid: nat -> string, n: nat): (ids: seq<string>)
    ensures |ids| == n && forall i :: 0 <= i < n ==> ids[i] == uuid(i)
  {
    seq(n, i requires 0 <= i < n => uuid(i))
  }

  /** `Questionnaire.onAnswerBatch` for one batch event. Acts only on a
      stored ANSWERING questionnaire, read at time `now`. `gen` answers the
      batch; every entry of the reply object (`Object.entries`) is stored
      with a fresh uuid from `uuid`. A failed generation records ERROR with
      "Error answering batch"; a successful last batch
      (`batchNumber == totalBatches - 1`) records COMPLETED with the clock
      reading `completedAt`; any other successful batch leaves the
      questionnaire row alone. Nothing is published. */
  function OnAnswerBatch(w: World, id: string, totalBatches: nat, batchNumber: nat,
                         batch: seq<string>, gen: Answers.Generator,
                         uuid: nat -> string, digest: A.Digest, now: int, completedAt: int): (w': World)
    ensures w'.published == w.published
    ensures (LookupQuestionnaire(w.table, id).None?
             || LookupQuestionnaire(w.table, id).value.state != Answering) ==> w' == w
    ensures (LookupQuestionnaire(w.table, id).Some?
             && LookupQuestionnaire(w.table, id).value.state == Answering) ==>
      var q := FromRow(LookupQuestionnaire(w.table, id).value, now);
      var reply := gen(batch, q.qtype, q.customerType);
      && (reply.None? ==>
            w'.table == SaveQuestionnaire(w.table, q.(state := Error, error := Some(BatchError))))
      && (reply.Some? ==>
            var entries := Gemini.ObjectEntries(reply.value);
            var written := Answers.BatchCreate(w.table, Some(q.id), entries,
                                               FreshIds(uuid, |entries|), digest).table;
            && (batchNumber == totalBatches - 1 ==>
                  w'.table == SaveQuestionnaire(written, q.(state := Completed, dateCompleted := Some(completedAt))))
            && (batchNumber != totalBatches - 1 ==> w'.table == written))
  {
    match LookupQuestionnaire(w.table, id)
    case None => w
    case Some(row) =>
      if row.state != Answering then w
      else
        var q := FromRow(row, now);
        match gen(batch, q.qtype, q.customerType)
        case None =>
          World(SaveQuestionnaire(w.table, q.(state := Error, error := Some(BatchError))), w.published)
        case Some(reply) =>
          var entries := Gemini.ObjectEntries(reply);
          var written := Answers.BatchCreate(w.table, Some(q.id), entries,
                                             FreshIds(uuid, |entries|), digest).table;
          if batchNumber == totalBatches - 1 then
            World(SaveQuestionnaire(written, q.(state := Completed, dateCompleted := Some(completedAt))), w.published)
          else
            World(written, w.published)
  }

  /** Whether a state is terminal: only deletion leaves it. */
  predicate Terminal(s: QuestionnaireState)
  {
    s == Completed || s == Error
  }

  /** A stale or duplicate batch for a COMPLETED or ERROR questionnaire
      changes nothing: no state change and no answers written. */
  lemma BatchLeavesTerminal(w: World, id: string, totalBatches: nat, batchNumber: nat,
                            batch: seq<string>, gen: Answers.Generator,
                            uuid: nat -> string, digest: A.Digest, now: int, completedAt: int)
    requires LookupQuestionnaire(w.table, id).Some?
    requires Terminal(LookupQuestionnaire(w.table, id).value.state)
    ensures OnAnswerBatch(w, id, totalBatches, batchNumber, batch, gen, uuid, digest, now, completedAt) == w
  {
  }

  /** After a batch on a consistent store, the questionnaire is COMPLETED
      (with a completion time) exactly when it was the last batch and the
      generator answered; ERROR exactly when the generator failed; and still
      ANSWERING otherwise. */
  lemma BatchOutcome(w: World, id: string, totalBatches: nat, batchNumber: nat,
                     batch: seq<string>, gen: Answers.Generator,
                     uuid: nat -> string, digest: A.Digest, now: int, completedAt: int)
    requires Consistent(w.table)
    requires LookupQuestionnaire(w.table, id).Some?
    requires LookupQuestionnaire(w.table, id).value.state == Answering
    ensures var before := LookupQuestionnaire(w.table, id).value;
            var reply := gen(batch, before.qtype, before.customerType);
            var after := LookupQuestionnaire(
                           OnAnswerBatch(w, id, totalBatches, batchNumber, batch, gen, uuid, digest, now, completedAt).table, id);
      && after.Some?
      && (reply.None? ==> after.value.state == Error && after.value.error == Some(BatchError))
      && (reply.Some? && batchNumber == totalBatches - 1 ==>
            after.value.state == Completed && after.value.dateCompleted == Some(completedAt))
      && (reply.Some? && batchNumber != totalBatches - 1 ==> after.value == before)
  {
    var before := LookupQuestionnaire(w.table, id).value;
    LookupHasId(w.table, id);
    var reply := gen(batch, before.qtype, before.customerType);
    if reply.Some? {
      var entries := Gemini.ObjectEntries(reply.value);
      var uuids := FreshIds(uuid, |entries|);
      forall i | 0 <= i < |uuids| ensures Key(id) != A.Key(uuids[i]) {
        KeysDisjoint(id, uuids[i]);
      }
      Answers.BatchCreateKeeps(w.table, Some(id), entries, uuids, digest, Key(id));
    }
  }

  /** The generator `onAnswerBatch` calls, as written: `answerQuestionBatch`
      from `gemini.ts`, handed the request object
      `{ questions, type, customerType }`. */
  function BatchGeneratorAsWritten(model: string -> Option<string>,
                                   parse: string -> Option<Gemini.Entries>): Answers.Generator
  {
    (questions: seq<string>, qtype: QuestionnaireType, customerType: CustomerType) =>
      Gemini.AnswerQuestionBatchCalled(
        Gemini.RequestObject(questions, TypeValue(qtype), CustomerValue(customerType)), model, parse)
  }

  /** As written, every batch fails: the list-taking `answerQuestionBatch`
      throws on the request object, so an ANSWERING questionnaire ends ERROR
      with "Error answering batch", whatever the model replies. */
  lemma BatchAsWrittenErrors(w: World, id: string, totalBatches: nat, batchNumber: nat,
                             batch: seq<string>, model: string -> Option<string>,
                             parse: string -> Option<Gemini.Entries>,
                             uuid: nat -> string, digest: A.Digest, now: int, completedAt: int)
    requires Consistent(w.table)
    requires LookupQuestionnaire(w.table, id).Some?
    requires LookupQuestionnaire(w.table, id).value.state == Answering
    ensures var after := LookupQuestionnaire(
              OnAnswerBatch(w, id, totalBatches, batchNumber, batch, BatchGeneratorAsWritten(model, parse),
                            uuid, digest, now, completedAt).table, id);
      after.Some? && after.value.state == Error && after.value.error == Some(BatchError)
  {
    BatchOutcome(w, id, totalBatches, batchNumber, batch, BatchGeneratorAsWritten(model, parse),
                 uuid, digest, now, completedAt);
  }

  // ---------------------------------------------------- name-query finding

  /** The `label1` query `getByName` and `searchByName` issue, as written:
      `questionnaire:<name>*`. */
  function ByNamePatternAsWritten(name: string): string
  {
    "questionnaire:" + name + "*"
  }

  /** As written, the name query never selects a label that `save` wrote:
      those start `questionnaire-`, not `questionnaire:`. */
  lemma ByNameAsWrittenNeverMatches(name: string, saved: Option<string>)
    ensures !Matches(ByNamePatternAsWritten(name), NameLabel(saved))
  {
    WildcardMatches("questionnaire:" + name, NameLabel(saved));
    assert ("questionnaire:" + name)[13] == ':';
    assert NameLabel(saved)[13] == '-';
  }

  /** As written, the name query does select answer labels: `label1` of an
      answer is `questionnaire:<qid>:<hash>`, so every answer whose
      `<qid>:<hash>` starts with `name` is found (all of them for the empty
      name), and `getByName` would build a questionnaire from that row. */
  lemma ByNameAsWrittenMatchesAnswers(name: string, qid: string, hash: string)
    ensures Matches(ByNamePatternAsWritten(name), A.QuestionnaireLabel(qid, hash))
            <==> name <= qid + ":" + hash
  {
    var tag := A.QuestionnaireLabel(qid, hash);
    var tail := qid + ":" + hash;
    assert tag == "questionnaire:" + tail;
    WildcardMatches("questionnaire:" + name, tag);
    if "questionnaire:" + name <= tag {
      assert name == ("questionnaire:" + name)[14..];
      assert tail == tag[14..];
    }
    if name <= tail {
      assert ("questionnaire:" + name) == tag[..14 + |name|];
    }
  }

  /** The name query as evidently intended: the exact label `save` writes. */
  function ByNamePattern(name: string): string
  {
    NameLabel(Some(name))
  }

  /** The intended query selects a saved questionnaire's label exactly when
      its name is the one asked for (an unset name prints as `undefined`). */
  lemma ByNamePatternSelectsName(name: string, saved: Option<string>)
    requires |name| == 0 || name[|name| - 1] != '*'
    ensures Matches(ByNamePattern(name), NameLabel(saved)) <==> saved.GetOr("undefined") == name
  {
    var p := ByNamePattern(name);
    assert |p| > 0 && p[|p| - 1] != '*' by {
      if |name| == 0 { assert p == "questionnaire-"; } else { assert p[|p| - 1] == name[|name| - 1]; }
    }
    ExactMatches(p, NameLabel(saved));
    if p == NameLabel(saved) {
      assert name == p[14..];
      assert saved.GetOr("undefined") == NameLabel(saved)[14..];
    }
  }
}

=== FILE: seqs.dfy ===
/** Sequence helpers: `SplitEvery` (ramda's `splitEvery`), `Flatten`, and
    `Join`/`Split` on a separator. */
module Seqs {

  /** The concatenation of a sequence of sequences, in order. */
  function Flatten<T>(ss: seq<seq<T>>): seq<T>
  {
    if |ss| == 0 then [] else ss[0] + Flatten(ss[1..])
  }

  lemma {:induction false} FlattenAppend<T>(a: seq<seq<T>>, b: seq<seq<T>>)
    ensures Flatten(a + b) == Flatten(a) + Flatten(b)
  {
    if |a| == 0 {
      assert a + b == b;
    } else {
      assert (a + b)[1..] == a[1..] + b;
      FlattenAppend(a[1..], b);
    }
  }

  /** Number of chunks of at most `n` needed for `len` elements. */
  function ChunkCount(len: nat, n: nat): nat
    requires n > 0
    decreases len
  {
    if len == 0 then 0 else if len <= n then 1 else 1 + ChunkCount(len - n, n)
  }

  /** `ChunkCount` is the ceiling of `len / n`: the smallest `c` with
      `len <= c * n`. */
  lemma {:induction false} ChunkCountIsCeiling(len: nat, n: nat)
    requires n > 0
    ensures ChunkCount(len, n) == 0 <==> len == 0
    ensures len <= ChunkCount(len, n) * n
    ensures len > 0 ==> (ChunkCount(len, n) - 1) * n < len
    decreases len
  {
    if len > n {
      ChunkCountIsCeiling(len - n, n);
      var c := ChunkCount(len - n, n);
      assert (1 + c) * n == c * n + n;
      assert (1 + c - 1) * n == c * n;
    }
  }

  /** Split `s` into consecutive chunks of `n`; only the last may be shorter. */
  function SplitEvery<T>(n: nat, s: seq<T>): (chunks: seq<seq<T>>)
    requires n > 0
    ensures Flatten(chunks) == s
    ensures |chunks| == ChunkCount(|s|, n)
    ensures forall i :: 0 <= i < |chunks| ==> 0 < |chunks[i]| <= n
    ensures forall i :: 0 <= i < |chunks| - 1 ==> |chunks[i]| == n
    decreases |s|
  {
    if |s| == 0 then
      []
    else if |s| <= n then
      [s]
    else
      var rest := SplitEvery(n, s[n..]);
      assert s == s[..n] + s[n..];
      [s[..n]] + rest
  }

  /** `parts` joined with `sep` between consecutive parts (`Array.prototype.join`). */
  function Join(parts: seq<string>, sep: char): string
  {
    if |parts| == 0 then ""
    else if |parts| == 1 then parts[0]
    else parts[0] + [sep] + Join(parts[1..], sep)
  }

  /** `s` cut at every occurrence of `sep` (`String.prototype.split` on a
      one-character separator). */
  function Split(s: string, sep: char): (parts: seq<string>)
    ensures |parts| > 0
    decreases |s|
  {
    if |s| == 0 then [""]
    else if s[0] == sep then [""] + Split(s[1..], sep)
    else
      var rest := Split(s[1..], sep);
      [[s[0]] + rest[0]] + rest[1..]
  }

  lemma {:induction false} SplitPrefix(a: string, b: string, sep: char)
    requires sep !in a
    ensures Split(a + [sep] + b, sep) == [a] + Split(b, sep)
    decreases |a|
  {
    if |a| == 0 {
      assert a + [sep] + b == [sep] + b;
      assert ([sep] + b)[1..] == b;
    } else {
      assert (a + [sep] + b)[1..] == a[1..] + [sep] + b;
      SplitPrefix(a[1..], b, sep);
      assert [a[0]] + a[1..] == a;
    }
  }

  lemma {:induction false} SplitNoSep(a: string, sep: char)
    requires sep !in a
    ensures Split(a, sep) == [a]
    decreases |a|
  {
    if |a| > 0 {
      SplitNoSep(a[1..], sep);
      assert [a[0]] + a[1..] == a;
    }
  }

  /** Joining parts that do not contain the separator can be undone by
      splitting on it. */
  lemma {:induction false} SplitJoin(parts: seq<string>, sep: char)
    requires |parts| > 0
    requires forall i :: 0 <= i < |parts| ==> sep !in parts[i]
    ensures Split(Join(parts, sep), sep) == parts
  {
    if |parts| == 1 {
      SplitNoSep(parts[0], sep);
    } else {
      SplitJoin(parts[1..], sep);
      SplitPrefix(parts[0], Join(parts[1..], sep), sep);
      assert [parts[0]] + parts[1..] == parts;
    }
  }
}

=== FILE: store.dfy ===
/** The key-value store the models persist into: records carrying a value and
    named labels, label patterns with a trailing `*` wildcard, and the paged
    results a label query delivers (each page may point to the next). */
module Store {

  /** A stored value with its secondary-index labels (`label1`, `label2`). */
  datatype Record<V> = Record(value: V, labels: map<string, string>)

  /** Whether a label query `pattern` selects `tag`: a trailing `*` matches
      any suffix; otherwise the label must be equal to the pattern. */
  predicate Matches(pattern: string, tag: string)
  {
    if |pattern| > 0 && pattern[|pattern| - 1] == '*' then
      pattern[..|pattern| - 1] <= tag
    else
      pattern == tag
  }

  /** Whether record `r` carries label `name` and the query `pattern` selects it. */
  predicate Labelled<V>(r: Record<V>, name: string, pattern: string)
  {
    name in r.labels && Matches(pattern, r.labels[name])
  }

  lemma WildcardMatches(prefix: string, tag: string)
    ensures Matches(prefix + "*", tag) <==> prefix <= tag
  {
    assert (prefix + "*")[..|prefix|] == prefix;
  }

  lemma ExactMatches(pattern: string, tag: string)
    requires |pattern| == 0 || pattern[|pattern| - 1] != '*'
    ensures Matches(pattern, tag) <==> pattern == tag
  {
  }

  /** One page of a query result; a non-final page holds the cursor to the next. */
  datatype Page<T> = LastPage(items: seq<T>) | Page(items: seq<T>, next: Page<T>)

  /** Every item reachable from `p`, page by page. */
  function AllItems<T>(p: Page<T>): seq<T>
  {
    match p
    case LastPage(items) => items
    case Page(items, next) => items + AllItems(next)
  }

  /** `s` delivered in pages of `size` items (the store's own page size). */
  function Paginate<T>(s: seq<T>, size: nat): (p: Page<T>)
    requires size > 0
    ensures |p.items| <= size
    decreases |s|
  {
    if |s| <= size then LastPage(s) else Page(s[..size], Paginate(s[size..], size))
  }

  /** Whatever the page size, following the pages gives back the items in order. */
  lemma {:induction false} PaginateAllItems<T>(s: seq<T>, size: nat)
    requires size > 0
    ensures AllItems(Paginate(s, size)) == s
    decreases |s|
  {
    if |s| > size {
      PaginateAllItems(s[size..], size);
      assert s[..size] + s[size..] == s;
    }
  }
}

=== FILE: text.dfy ===
/** String helpers shared by the model: JavaScript's `String.prototype.trim`
    and the truthiness of an optional string. */
module Text {
  import opened Wrappers

  /** The characters `trim` removes: ECMAScript WhiteSpace and LineTerminator. */
  predicate IsSpace(c: char)
  {
    || c == '\t' || c == '\n' || c == '\U{000B}' || c == '\U{000C}' || c == '\r' || c == ' '
    || c == '\U{00A0}' || c == '\U{1680}' || ('\U{2000}' <= c <= '\U{200A}')
    || c == '\U{2028}' || c == '\U{2029}' || c == '\U{202F}' || c == '\U{205F}'
    || c == '\U{3000}' || c == '\U{FEFF}'
  }

  predicate AllSpace(s: string)
  {
    forall i :: 0 <= i < |s| ==> IsSpace(s[i])
  }

  /** `s` without leading whitespace. */
  function TrimStart(s: string): (r: string)
    ensures |r| <= |s| && r == s[|s| - |r|..]
    ensures AllSpace(s[..|s| - |r|])
    ensures |r| > 0 ==> !IsSpace(r[0])
    decreases |s|
  {
    if |s| > 0 && IsSpace(s[0]) then
      var r := TrimStart(s[1..]);
      var n := |s| - |r|;
      assert AllSpace(s[..n]) by {
        forall i | 0 <= i < n ensures IsSpace(s[..n][i]) {
          if i > 0 { assert s[..n][i] == s[1..][..n - 1][i - 1]; }
        }
      }
      assert s[1..][n - 1..] == s[n..];
      r
    else s
  }

  /** `s` without trailing whitespace. */
  function TrimEnd(s: string): (r: string)
    ensures |r| <= |s| && r == s[..|r|]
    ensures AllSpace(s[|r|..])
    ensures |r| > 0 ==> !IsSpace(r[|r| - 1])
    decreases |s|
  {
    if |s| > 0 && IsSpace(s[|s| - 1]) then
      var r := TrimEnd(s[..|s| - 1]);
      assert s[|r|..] == s[..|s| - 1][|r|..] + [s[|s| - 1]];
      r
    else s
  }

  /** `r` is the slice of `s` at `i`, with only whitespace around it. */
  predicate Window(s: string, i: int, r: string)
  {
    0 <= i <= |s| - |r| && r == s[i..i + |r|] && AllSpace(s[..i]) && AllSpace(s[i + |r|..])
  }

  lemma TrimWindow(s: string, i: int, t: string, r: string)
    requires 0 <= i <= |s| && t == s[i..] && AllSpace(s[..i])
    requires |r| <= |t| && r == t[..|r|] && AllSpace(t[|r|..])
    ensures Window(s, i, r)
  {
    SliceOfSuffix(s, i, |r|);
  }

  lemma SliceOfSuffix(s: string, i: int, n: int)
    requires 0 <= i && 0 <= n && i + n <= |s|
    ensures s[i..][..n] == s[i..i + n]
    ensures s[i..][n..] == s[i + n..]
  {
  }

  /** JavaScript `s.trim()`: the slice of `s` between its leading and its
      trailing whitespace. */
  function Trim(s: string): (r: string)
    ensures |r| <= |s|
    ensures exists i :: Window(s, i, r)
    ensures |r| > 0 ==> !IsSpace(r[0]) && !IsSpace(r[|r| - 1])
  {
    var t := TrimStart(s);
    var r := TrimEnd(t);
    TrimWindow(s, |s| - |t|, t, r);
    r
  }

  lemma TrimStartNoSpace(s: string)
    requires |s| == 0 || !IsSpace(s[0])
    ensures TrimStart(s) == s
  {
  }

  lemma TrimEndNoSpace(s: string)
    requires |s| == 0 || !IsSpace(s[|s| - 1])
    ensures TrimEnd(s) == s
  {
  }

  /** Trimming twice is trimming once. */
  lemma TrimIdempotent(s: string)
    ensures Trim(Trim(s)) == Trim(s)
  {
    var r := Trim(s);
    TrimStartNoSpace(r);
    TrimEndNoSpace(r);
  }

  /** JavaScript truthiness of a possibly-undefined string: defined and non-empty. */
  predicate Truthy(s: Option<string>)
  {
    s.Some? && |s.value| > 0
  }
}

=== FILE: vector_search.dfy ===
/** The record filter and projection of `getQuestionsFromCsvs` in
    `vector-search.ts`, over records already parsed from each file. */
module VectorSearch {
  import opened Wrappers
  import opened Text
  import opened AnswerRows

  /** One parsed CSV row: its `Question` and `Answer` columns, `None` when absent. */
  datatype CsvRecord = CsvRecord(question: Option<string>, answer: Option<string>)

  /** A historic answer as the function returns it. */
  datatype HistoricAnswer = HistoricAnswer(question: string, answer: string, id: string)

  /** A record is kept when both its question and its answer are non-empty. */
  predicate Keep(r: CsvRecord)
  {
    Truthy(r.question) && Truthy(r.answer)
  }

  /** Reference definition: the (question, answer) pairs of the kept
      records of one file, in file order. */
  function Kept(records: seq<CsvRecord>): seq<(string, string)>
    decreases |records|
  {
    if |records| == 0 then []
    else
      var last := records[|records| - 1];
      Kept(records[..|records| - 1])
        + (if Keep(last) then [(last.question.value, last.answer.value)] else [])
  }

  /** Reference definition: the kept pairs of every file, files in argument order. */
  function KeptAll(files: seq<seq<CsvRecord>>): seq<(string, string)>
    decreases |files|
  {
    if |files| == 0 then [] else KeptAll(files[..|files| - 1]) + Kept(files[|files| - 1])
  }

  function Questions(pairs: seq<(string, string)>): (qs: seq<string>)
    ensures |qs| == |pairs| && forall i :: 0 <= i < |pairs| ==> qs[i] == pairs[i].0
  {
    seq(|pairs|, i requires 0 <= i < |pairs| => pairs[i].0)
  }

  /** Each pair as a historic answer, its id the hash of the ANSWER text. */
  function Historic(pairs: seq<(string, string)>, digest: Digest): (hs: seq<HistoricAnswer>)
    ensures |hs| == |pairs|
    ensures forall i :: 0 <= i < |pairs| ==>
              hs[i] == HistoricAnswer(pairs[i].0, pairs[i].1, Hash(digest, pairs[i].1))
  {
    seq(|pairs|, i requires 0 <= i < |pairs| => HistoricAnswer(pairs[i].0, pairs[i].1, Hash(digest, pairs[i].1)))
  }

  lemma QuestionsSnoc(pairs: seq<(string, string)>, more: seq<(string, string)>)
    ensures Questions(pairs + more) == Questions(pairs) + Questions(more)
  {
  }

  lemma HistoricSnoc(pairs: seq<(string, string)>, more: seq<(string, string)>, digest: Digest)
    ensures Historic(pairs + more, digest) == Historic(pairs, digest) + Historic(more, digest)
  {
  }

  /** Every pair that survives the filter has a non-empty question and answer. */
  lemma {:induction false} KeptNonEmpty(records: seq<CsvRecord>)
    ensures forall i :: 0 <= i < |Kept(records)| ==>
              |Kept(records)[i].0| > 0 && |Kept(records)[i].1| > 0
    decreases |records|
  {
    if |records| > 0 {
      KeptNonEmpty(records[..|records| - 1]);
    }
  }

  lemma {:induction false} KeptAllNonEmpty(files: seq<seq<CsvRecord>>)
    ensures forall i :: 0 <= i < |KeptAll(files)| ==>
              |KeptAll(files)[i].0| > 0 && |KeptAll(files)[i].1| > 0
    decreases |files|
  {
    if |files| > 0 {
      KeptAllNonEmpty(files[..|files| - 1]);
      KeptNonEmpty(files[|files| - 1]);
    }
  }

  /** The kept pairs of one more record. */
  function Step(r: CsvRecord): seq<(string, string)>
  {
    if Keep(r) then [(r.question.value, r.answer.value)] else []
  }

  /** The inner loop of the method: the current file's kept records
      appended to the running outputs. */
  method AppendFile(records: seq<CsvRecord>, digest: Digest, before: seq<(string, string)>,
                    questions0: seq<string>, answers0: seq<HistoricAnswer>)
    returns (questions: seq<string>, answers: seq<HistoricAnswer>)
    requires questions0 == Questions(before) && answers0 == Historic(before, digest)
    ensures questions == Questions(before + Kept(records))
    ensures answers == Historic(before + Kept(records), digest)
  {
    questions, answers := questions0, answers0;
    var r := 0;
    while r < |records|
      invariant 0 <= r <= |records|
      invariant questions == Questions(before + Kept(records[..r]))
      invariant answers == Historic(before + Kept(records[..r]), digest)
    {
      var rec := records[r];
      assert records[..r + 1][..r] == records[..r];
      assert Kept(records[..r + 1]) == Kept(records[..r]) + Step(rec);
      assert before + Kept(records[..r + 1]) == (before + Kept(records[..r])) + Step(rec);
      QuestionsSnoc(before + Kept(records[..r]), Step(rec));
      HistoricSnoc(before + Kept(records[..r]), Step(rec), digest);
      if Truthy(rec.question) && Truthy(rec.answer) {
        questions := questions + [rec.question.value];
        answers := answers + [HistoricAnswer(rec.question.value, rec.answer.value,
                                             Hash(digest, rec.answer.value))];
      }
      r := r + 1;
    }
    assert records[..r] == records;
  }

  /** `getQuestionsFromCsvs`: walks the files in order, keeps the records
      with a non-empty question and answer, and returns their questions and,
      position for position, the matching historic answers. */
  method QuestionsFromCsvs(files: seq<seq<CsvRecord>>, digest: Digest)
    returns (questions: seq<string>, answers: seq<HistoricAnswer>)
    ensures questions == Questions(KeptAll(files))
    ensures answers == Historic(KeptAll(files), digest)
    ensures |questions| == |answers|
    ensures forall i :: 0 <= i < |answers| ==>
              && answers[i].question == questions[i]
              && |answers[i].question| > 0 && |answers[i].answer| > 0
              && answers[i].id == Hash(digest, answers[i].answer)
  {
    questions := [];
    answers := [];
    var f := 0;
    while f < |files|
      invariant 0 <= f <= |files|
      invariant questions == Questions(KeptAll(files[..f]))
      invariant answers == Historic(KeptAll(files[..f]), digest)
    {
      if |files[f]| > 0 {
        questions, answers := AppendFile(files[f], digest, KeptAll(files[..f]), questions, answers);
      }
      assert files[..f + 1][..f] == files[..f];
      assert KeptAll(files[..f + 1]) == KeptAll(files[..f]) + Kept(files[f]);
      f := f + 1;
    }
    assert files[..f] == files;
    KeptAllNonEmpty(files);
  }

  /** Argument order is output order: the files' kept pairs concatenate. */
  lemma {:induction false} KeptAllAppend(a: seq<seq<CsvRecord>>, b: seq<seq<CsvRecord>>)
    ensures KeptAll(a + b) == KeptAll(a) + KeptAll(b)
    decreases |b|
  {
    if |b| == 0 {
      assert a + b == a;
    } else {
      var init, last := b[..|b| - 1], b[|b| - 1];
      assert (a + b)[..|a + b| - 1] == a + init;
      assert (a + b)[|a + b| - 1] == last;
      assert KeptAll(a + b) == KeptAll(a + init) + Kept(last);
      KeptAllAppend(a, init);
      assert KeptAll(b) == KeptAll(init) + Kept(last);
    }
  }

  /** Within a file, record order is output order. */
  lemma {:induction false} KeptAppend(a: seq<CsvRecord>, b: seq<CsvRecord>)
    ensures Kept(a + b) == Kept(a) + Kept(b)
    decreases |b|
  {
    if |b| == 0 {
      assert a + b == a;
    } else {
      assert (a + b)[..|a + b| - 1] == a + b[..|b| - 1];
      KeptAppend(a, b[..|b| - 1]);
    }
  }

  /** A single record yields a pair exactly when it is kept, and then it
      yields its own question and answer. */
  lemma KeptSingle(r: CsvRecord)
    ensures |Kept([r])| == (if Keep(r) then 1 else 0)
    ensures Keep(r) ==> Kept([r]) == [(r.question.value, r.answer.value)]
  {
    assert [r][..0] == [];
  }

  /** A file with no records, or with none kept, contributes nothing. */
  lemma {:induction false} KeptNone(records: seq<CsvRecord>)
    requires forall i :: 0 <= i < |records| ==> !Keep(records[i])
    ensures Kept(records) == []
    decreases |records|
  {
    if |records| > 0 {
      KeptNone(records[..|records| - 1]);
    }
  }
}

=== FILE: wrappers.dfy ===
/** Failure-compatible wrappers used throughout the model: `Option` for the
    source's `undefined`/`null`, `Result` for an operation that throws. */
module Wrappers {

  datatype Option<+T> = None | Some(value: T) {

    function GetOr(default: T): T {
      match this
      case Some(v) => v
      case None => default
    }
  }

  datatype Result<+R, +E> = Success(value: R) | Failure(error: E)
}
